=== FILE: README.md ===
# FAQ generator: API-key gateway, settings and saved FAQ sets in Dafny

This project models the server core of the FAQ generator and proves properties of that model. The server lets signed-in users keep their generation preferences, save generated FAQ sets and call a public generation API with a personal API key.

The following parts are modelled:

- The public API's gatekeeper. It resolves a bearer key to its owner's settings row, refuses unknown and expired keys, and limits each user to 15 calls per hour. The window is a sliding anchor: every accepted call moves it to the time of that call.
- Key rotation. It issues a new 40-character key valid for 30 days and leaves the usage counters alone.
- The key generator, which maps random 32-bit words onto a 62-letter alphabet.
- The settings endpoint, the user-sync endpoint and the two sync helpers. All of them read and upsert the same `userSettings` and `user` tables.
- The saved-FAQ-set endpoint, covering:
  - listing, owner only and newest first;
  - saving, with items numbered in input order and a five-second duplicate guard;
  - deleting, owner only.
- The deterministic parts of the public generation endpoint:
  - bearer-header parsing;
  - the mapping of a refusal to a status;
  - body defaults;
  - the tag stripper;
  - the 6000-character excerpt;
  - the topic line;
  - the plain-text rendering.
- The SEO-score endpoint's input guard and text rendering.
- The browser-side settings store: setters, reset, load, save and key request.

How the model is built:

- The database client is the class `Database.Db`. It holds the three tables as a map of users, a map of settings rows keyed by user id, and a sequence of FAQ sets in table order.
- A route that writes (POST /api/settings, POST /api/user/sync, POST and DELETE /api/faqs, POST /api/key/generate, POST /api/public/generate) is a module-level method that takes the `Db` and `modifies` it. Its postcondition ties the new tables and the reply to a function of the old tables, and the properties are proved about those functions.
- A route that only reads (GET /api/settings, GET /api/faqs) is a function of the tables. POST /api/seo-score touches no table and is a function of its input.
- The settings store is the class `SettingsStore.Store`. Each of its actions is tied to a function of the store state.
- Time is an integer count of milliseconds and is passed in. The random words, the page fetch and the language-model calls are passed in too.

Modules: `Common`, `Text`, `Database`, `RateLimit`, `ApiKeyGenerator`, `KeyRoute`, `SettingsRoute`, `SyncUser`, `UserSyncRoute`, `FaqSetsRoute`, `PublicGenerate`, `SeoScore`, `SettingsStore`.

## Model

| member | source | states |
|---|---|---|
| Common.OrNull | lib/sync-user.ts:14-15 | `s \|\| null`: a truthy string is kept, an absent or empty one becomes null |
| Common.OrElse | store/useSettingsStore.ts:91-95 | `s \|\| fallback`: a truthy string is kept, otherwise the fallback; a non-empty fallback gives a non-empty result |
| Common.OrElseNumber | store/useSettingsStore.ts:92 | `n \|\| fallback` on numbers: 0 and absence take the fallback, so a non-zero fallback gives a non-zero result |
| Text.NatToString | lib/rate-limit.ts:67 | a number rendered in a template literal is a non-empty string of digits without a leading zero |
| Text.DecimalRoundTrip | lib/rate-limit.ts:67 | reading the rendered digits back as a decimal number gives the number |
| Text.StartsWith | app/api/public/generate/route.ts:13 | `startsWith` holds exactly when the string is the prefix followed by the rest |
| Text.Contains | app/api/public/generate/route.ts:28 | `includes` holds whenever the string starts with the text, and only when the text is no longer than the string |
| Text.ContainsIffOccurs | app/api/public/generate/route.ts:28 | `includes` holds exactly when the text stands in the string at some position |
| Text.NotContainsWithoutFirstChar | app/api/public/generate/route.ts:28 | `includes` cannot find a text whose first character does not occur |
| Text.Take | app/api/public/generate/route.ts:75 | `slice(0, n)` is a prefix of length min(n, length) |
| Text.Split | app/api/public/generate/route.ts:20 | `split(c)` gives at least one part, no part contains c, and the first part is the longest c-free prefix |
| Text.SplitJoinRoundTrip | app/api/public/generate/route.ts:20 | joining the parts of a split with the separator gives the original string back |
| Text.SplitAfterField | app/api/public/generate/route.ts:20 | a leading c-free field followed by c is exactly the first part, and the rest splits independently |
| Text.Join | app/api/seo-score/route.ts:23 | `join` of no parts is empty and of one part is that part |
| Text.JoinEndsWithLast | app/api/seo-score/route.ts:23 | `join` of one or more parts ends with the last part |
| Text.JoinCons | app/api/seo-score/route.ts:23 | `join` puts one separator after a prepended part |
| Text.JoinExtendFirst | app/api/seo-score/route.ts:23 | `join` keeps a text prepended to its first part at the front |
| Text.JoinLength | app/api/seo-score/route.ts:23 | joining n ≥ 1 parts adds exactly n − 1 separators and nothing else |
| Text.JoinMappedSnoc | app/api/public/generate/route.ts:178-180 | map-then-join of a list with one more element adds one separator and that element's rendering at the next index |
| Database.Given | app/api/settings/route.ts:84-92 | an update field that is left out keeps the column's value, a given one replaces it |
| Database.BlankRow | app/api/settings/route.ts:93-100 | a created row has the given userId, the column defaults for the five preferences and the request count, a null key, null key dates and no anchor |
| Database.KeyOwner | lib/rate-limit.ts:25-27 | `findFirst({ where: { apiKey } })`: a row holding the key, or none when no row holds it |
| Database.KeyOwnerUnique | lib/rate-limit.ts:25-27 | API keys are unique, so the row found is the one row holding the key |
| RateLimit.RateLimitedError | lib/rate-limit.ts:65-68 | the rate-limit message starts with "Rate limit exceeded" |
| RateLimit.RateLimitedErrorStatesWait | lib/rate-limit.ts:58-68 | the message is the fixed text naming the cap of 15, then only decimal digits that read back as the minutes until reset, then " minutes." |
| RateLimit.RateLimitedErrorDeterminesWait | lib/rate-limit.ts:58-68 | two rate-limit messages are equal only when they announce the same wait |
| RateLimit.MinutesUntilReset | lib/rate-limit.ts:59-64 | the wait is the ceiling of the remaining window in minutes: (m − 1)·60000 < remaining ≤ m·60000, and it lies in [0, 60] for an elapsed time within the hour |
| RateLimit.Check | lib/rate-limit.ts:18-85 | the decision and the new table: only the two counter columns of the owner's row can change, a refusal writes nothing, an accepted call sets the anchor to now and is for an unexpired key's owner, and a count at or below 15 stays at or below 15 |
| RateLimit.UnknownKeyRejected | lib/rate-limit.ts:25-31 | a key no row holds is refused as "Invalid API key" and nothing is written, whatever the table holds |
| RateLimit.ExpiredKeyRejected | lib/rate-limit.ts:33-36 | a known key is refused as expired if and only if it has an expiry that now lies strictly after; such a refusal writes nothing |
| RateLimit.FreshWindowResets | lib/rate-limit.ts:41-55 | with no earlier call, or more than an hour after it, the call is accepted whatever the count, the count restarts at 1 and the anchor is now |
| RateLimit.OverCapRejected | lib/rate-limit.ts:57-69 | within the hour (exactly one hour included) and at or above 15 calls, the call is refused with the minutes until reset and nothing is written |
| RateLimit.UnderCapCounted | lib/rate-limit.ts:71-80 | within the hour and under 15 calls, the count goes up by exactly one and the anchor moves to now |
| RateLimit.SameCountersSameDecision | lib/rate-limit.ts:12-13 | for an unexpired key, the decision depends on the owner's row only through its two counters, whatever key the row holds; the expired case is ExpiredKeyRejected |
| RateLimit.CappedTenMinutesAgo | lib/rate-limit.ts:58-68 | a user at the cap whose last call was ten minutes ago is told to wait 50 minutes |
| RateLimit.ResetAfterSixtyOneMinutes | lib/rate-limit.ts:42-55 | a user whose last call was 61 minutes ago starts a new window with count 1 |
| RateLimit.CheckOfOwner | lib/rate-limit.ts:33-80 | once the key's owner is known, the decision is the expiry, window and cap cascade on that row |
| RateLimit.CheckRateLimit | lib/rate-limit.ts:18-85 | the method's answer and new settings table are exactly those of `Check`; the other tables are unchanged |
| ApiKeyGenerator.GenerateApiKey | utils/generateAPIKey.ts:2-15 | the key has the requested length (default 32); character i is `chars[words[i] % 62]`, so every character is in the 62-letter alphabet and a length of 0 gives "" |
| KeyRoute.Rotate | app/api/key/generate/route.ts:37-61 | a rotation sets the key, its creation time (now) and its expiry (now + 30 days); an existing row changes only in those three columns, so the count and the anchor survive; a new row has count 0 and no anchor; other rows are untouched; a key another user holds is refused |
| KeyRoute.GenerateKey | app/api/key/generate/route.ts:29-76 | an anonymous caller gets 401 and nothing changes; otherwise the table becomes the rotation and the answer carries the 40-character key and its expiry, or 500 when the store refuses the key |
| KeyRoute.StaleKeyRejected | app/api/key/generate/route.ts:43-52 | after rotation the previous key resolves to nobody and is refused as invalid |
| KeyRoute.RotationKeepsRateLimit | app/api/key/generate/route.ts:43-52 | rotation cannot bypass the limit: a call with the new key gives the same decision and the same new count and anchor as a call with the old key would have |
| SettingsRoute.GetSettings | app/api/settings/route.ts:20-56 | no user gives 401; a user without a row gets the server defaults (de, 6, professional, gpt-4o-mini, json, no key, count 0) and no row is created; a user with a row gets its columns with `apiCount` equal to the stored request count |
| SettingsRoute.SavePreferences | app/api/settings/route.ts:82-101 | the upsert changes only the five preference columns of the caller's row, each one given or left as it was; key and counter columns and other users' rows are untouched; a missing row is created |
| SettingsRoute.SavePreferencesIdempotent | app/api/settings/route.ts:84-101 | saving the same preferences twice leaves the same table as saving them once |
| SettingsRoute.PostSettings | app/api/settings/route.ts:73-111 | no user gives 401 and no change; otherwise the table becomes `SavePreferences` and the answer is the saved row |
| SyncUser.UpsertUser | lib/sync-user.ts:10-23 | the user row afterwards holds the given email, and a falsy name or avatar as null; other rows are untouched |
| SyncUser.UpsertUserIdempotent | lib/sync-user.ts:10-23 | upserting the same user twice gives the same table as once |
| SyncUser.DefaultSettingsRow | lib/sync-user.ts:46-55 | a created settings row has de, 6, professional, gpt-4o-mini, json and no key |
| SyncUser.EnsureSettings | lib/sync-user.ts:37-55 | every existing row is left exactly as it was; a missing row for the user is created with the defaults |
| SyncUser.EnsureSettingsIdempotent | lib/sync-user.ts:37-55 | a second call creates nothing further and returns the row the first one made |
| SyncUser.SyncUser | lib/sync-user.ts:8-30 | `syncUser` upserts the user row and returns it, leaving the other tables alone |
| SyncUser.GetOrCreateUserSettings | lib/sync-user.ts:35-60 | an existing row is returned unchanged; otherwise the default row is created and returned |
| UserSyncRoute.Sync | app/api/user/sync/route.ts:21-63 | a body without a truthy id and email gives 400 and writes nothing; otherwise the user is upserted, a settings row is ensured, and no existing settings row ever changes |
| UserSyncRoute.SyncIdempotent | app/api/user/sync/route.ts:34-61 | syncing twice with the same body gives the same tables and answer as syncing once |
| UserSyncRoute.PostSync | app/api/user/sync/route.ts:21-71 | the route's answer and both new tables are exactly those of `Sync` |
| FaqSetsRoute.OwnedBy | app/api/faqs/route.ts:28-29 | the sets kept are exactly the caller's, a sub-multiset of the table |
| FaqSetsRoute.InsertNewestFirst | app/api/faqs/route.ts:35 | inserting into a newest-first list keeps it newest-first and adds exactly that set |
| FaqSetsRoute.SortNewestFirst | app/api/faqs/route.ts:35 | `orderBy: createdAt desc` gives a newest-first permutation of its input |
| FaqSetsRoute.GetFaqSets | app/api/faqs/route.ts:20-46 | no user gives 401; otherwise exactly the caller's sets, newest first, as a permutation of them, each with its items in ascending order |
| FaqSetsRoute.FindDuplicate | app/api/faqs/route.ts:82-93 | `findFirst` returns the earliest set, in the model's table order, of the same user, URL and title created at most five seconds ago, or none when no such set exists |
| FaqSetsRoute.NewSet | app/api/faqs/route.ts:101-116 | a created set belongs to the caller, and its items keep the input's questions and answers with `order` equal to their index |
| FaqSetsRoute.CreateFaqSet | app/api/faqs/route.ts:63-131 | no user gives 401; with a user, 400 is answered exactly when the title is falsy or the items are not an array; neither writes; with a source URL and a recent duplicate, the first duplicate's columns (no items) are returned and nothing is saved; with a valid body and no source URL or no recent duplicate, exactly the new set is appended and returned |
| FaqSetsRoute.IndexOfId | app/api/faqs/route.ts:164-166 | `findUnique` by id finds the set with that id, or none when there is none |
| FaqSetsRoute.DeleteFaqSet | app/api/faqs/route.ts:145-187 | no user gives 401 and no id gives 400; a missing or foreign set gives 404; when the caller owns the set with that id, the answer is success and exactly that set goes; the table changes only in that case |
| FaqSetsRoute.PostFaqSet | app/api/faqs/route.ts:63-131 | the route's answer and new set table are exactly those of `CreateFaqSet`, so a valid body without a recent duplicate is saved, a duplicate is answered with its columns, and the other tables are untouched |
| FaqSetsRoute.DeleteFaqSetRoute | app/api/faqs/route.ts:145-187 | the route's answer and new set table are exactly those of `DeleteFaqSet`, so the owner's delete of an existing set succeeds and removes exactly it, and the other tables are untouched |
| PublicGenerate.BearerKey | app/api/public/generate/route.ts:12-20 | a key is read if and only if the header starts with "Bearer "; it is `split(" ")[1]`, the run after the prefix up to the next space |
| PublicGenerate.BearerKeyOfKey | app/api/public/generate/route.ts:20 | for "Bearer " + k with no space in k, the key is exactly k |
| PublicGenerate.RejectionStatus | app/api/public/generate/route.ts:28 | a refusal is answered 429 if and only if its message contains "Rate limit", and 401 otherwise |
| PublicGenerate.RateLimitedIs429 | app/api/public/generate/route.ts:25-30 | the gatekeeper's rate-limit refusal is answered 429 |
| PublicGenerate.OtherRefusalsAre401 | app/api/public/generate/route.ts:25-30 | invalid, expired and internal-error refusals are answered 401 |
| PublicGenerate.TooManyRequestsIffOverCap | app/api/public/generate/route.ts:23-30 | a refused call is answered 429 exactly when its key is known, unexpired, within the window and at the cap |
| PublicGenerate.WithDefaults | app/api/public/generate/route.ts:32-42 | a field left out takes its default (de, 6, neutral, structured, gpt-5-mini, no SEO, no topics); a given field is kept even when falsy |
| PublicGenerate.AfterTag | app/api/public/generate/route.ts:57 | `[^>]*>?` consumes up to and including the next '>', or to the end when there is none |
| PublicGenerate.StripTags | app/api/public/generate/route.ts:57 | the stripped text has no '<', is no longer than the page, and a page without '<' is unchanged |
| PublicGenerate.StripTagsPlainPrefix | app/api/public/generate/route.ts:57 | text without '<' passes through the stripper unchanged |
| PublicGenerate.AfterClosedTag | app/api/public/generate/route.ts:57 | a tag whose inside has no '>' ends at its first '>' |
| PublicGenerate.StripLeadingTag | app/api/public/generate/route.ts:57 | a complete leading tag becomes exactly one space |
| PublicGenerate.StripTrailingOpenTag | app/api/public/generate/route.ts:57 | a tag left open at the end (the optional `>` absent) runs to the end and becomes one space |
| PublicGenerate.StripOneTag | app/api/public/generate/route.ts:57 | one complete tag after plain text becomes exactly one space and the rest is stripped on its own |
| PublicGenerate.TopicFocus | app/api/public/generate/route.ts:71 | no topics give "keiner"; one topic gives itself; n topics give their text plus n − 1 ", " separators |
| PublicGenerate.TopicFocusCons | app/api/public/generate/route.ts:71 | a further topic in front adds that topic and one ", " before the others' line |
| PublicGenerate.TopicFocusSnoc | app/api/public/generate/route.ts:71 | a further topic at the end adds one ", " and that topic after the others' line |
| PublicGenerate.PromptFor | app/api/public/generate/route.ts:64-76 | the prompt carries the chosen model, the count, language, tone and topic line, and exactly the first min(length, 6000) characters of the page text |
| PublicGenerate.QaText | app/api/public/generate/route.ts:177-180 | the text rendering is empty exactly when there are no FAQs |
| PublicGenerate.QaTextOne | app/api/public/generate/route.ts:177-180 | a single FAQ renders as "Q1: question\nA: answer" |
| PublicGenerate.QaTextSnoc | app/api/public/generate/route.ts:177-180 | one more FAQ adds one blank line and that FAQ numbered one past the previous count |
| PublicGenerate.PageText | app/api/public/generate/route.ts:51-62 | given content is used as is; otherwise exactly `StripTags` of the fetched page, which has no '<', or nothing when the fetch fails |
| PublicGenerate.Answer | app/api/public/generate/route.ts:44-212 | neither url nor content gives 404 (and only then); a failed fetch gives 500; once the page text is there, the answer is a success exactly when the completion parsed and (structured mode, or its `faqs` is present), and otherwise the generation-failed 500; a success carries the parsed `faqs` (possibly absent) with its meta in structured mode or their text rendering otherwise, and the SEO analysis of the chosen model only when asked for |
| PublicGenerate.Respond | app/api/public/generate/route.ts:25-30 | a refusal is answered with its mapped status and its message; an accepted call with `Answer` |
| PublicGenerate.MissingInputStillCounted | app/api/public/generate/route.ts:23-49 | a call with neither url nor content gets 404 only after the gatekeeper has counted it: the owner's row has changed and its anchor is now |
| PublicGenerate.PostGenerate | app/api/public/generate/route.ts:10-214 | a missing or non-bearer header gives 401 before any check and writes nothing; otherwise the settings table is the gatekeeper's and the answer is `Respond` to its decision |
| SeoScore.FaqText | app/api/seo-score/route.ts:18-23 | the rendered text is empty exactly when there are no FAQs |
| SeoScore.FaqTextOne | app/api/seo-score/route.ts:18-23 | a single FAQ renders as "Frage 1: question\nAntwort 1: answer" |
| SeoScore.FaqTextSnoc | app/api/seo-score/route.ts:18-23 | numbering is 1-based and consecutive: one more FAQ adds a blank line and that FAQ numbered one past the previous count |
| SeoScore.FaqTextLength | app/api/seo-score/route.ts:23 | n FAQs are separated by exactly n − 1 blank lines |
| SeoScore.ScoreSeo | app/api/seo-score/route.ts:8-110 | a missing or empty list gives 400 (and only it); otherwise the analysis of the rendered text, or 500 when the analysis fails |
| SettingsStore.Reset | store/useSettingsStore.ts:150-157 | reset sets the five preferences to de, 6, professional, gpt-4o-mini, json and leaves email, name, key and expiry alone |
| SettingsStore.ResetIsNotInitial | store/useSettingsStore.ts:70 | resetting a fresh store does not give a fresh store: only the model differs (gpt-4o-mini vs gpt-5-nano) |
| SettingsStore.Loaded | store/useSettingsStore.ts:88-98 | each loaded preference is the server's truthy value or its fallback, so none is falsy afterwards (a faqCount of 0 becomes 6); the key fields take the server's value, falsy as null; email and name stay |
| SettingsStore.LoadedIdempotent | store/useSettingsStore.ts:88-98 | loading the same answer twice leaves the store as loading it once |
| SettingsStore.Payload | store/useSettingsStore.ts:111-117 | the saved body holds exactly the five preferences, each given |
| SettingsStore.RequestKey | store/useSettingsStore.ts:126-148 | success stores exactly the key and expiry the server sent; otherwise the store is unchanged and the error is the server's, its fallback 'Failed to generate API key', or 'Network error' |
| SettingsStore.Store.constructor | store/useSettingsStore.ts:64-73 | a fresh store has empty email and name, de, 6, professional, gpt-5-nano, json and no key |
| SettingsStore.Store.SetEmail | store/useSettingsStore.ts:76 | changes only the email |
| SettingsStore.Store.SetName | store/useSettingsStore.ts:77 | changes only the name |
| SettingsStore.Store.SetLanguage | store/useSettingsStore.ts:78 | changes only the language |
| SettingsStore.Store.SetFaqCount | store/useSettingsStore.ts:79 | changes only the FAQ count |
| SettingsStore.Store.SetTone | store/useSettingsStore.ts:80 | changes only the tone |
| SettingsStore.Store.SetModel | store/useSettingsStore.ts:81 | changes only the model |
| SettingsStore.Store.SetExportFormat | store/useSettingsStore.ts:82 | changes only the export format |
| SettingsStore.Store.SetApiKey | store/useSettingsStore.ts:83 | changes the key and its expiry together and nothing else |
| SettingsStore.Store.LoadSettings | store/useSettingsStore.ts:85-103 | an ok answer is merged by `Loaded`; a refused or failed request leaves the store unchanged |
| SettingsStore.Store.SaveSettings | store/useSettingsStore.ts:105-124 | sends `Payload` of the current state and reports whether the server answered ok; the store does not change |
| SettingsStore.Store.GenerateApiKey | store/useSettingsStore.ts:126-148 | the new store and the outcome are exactly those of `RequestKey` |
| SettingsStore.Store.ResetSettings | store/useSettingsStore.ts:150-157 | the new store is `Reset` of the old one |
| SettingsStore.ClientSettings | app/api/settings/route.ts:45-48 | the store reads each preference and the key of the GET body as given, and an expiry when there is one |
| SettingsStore.LoadWithoutRowIsReset | app/api/settings/route.ts:32-43 | a user without a settings row who loads settings gets exactly the preferences a reset gives, and no key |
| SettingsStore.SaveThenLoad | store/useSettingsStore.ts:88-117 | saving the store's preferences and loading them back returns each one, except that a falsy one comes back as its fallback |
| SettingsStore.SaveThenLoadRoundTrip | store/useSettingsStore.ts:88-117 | with no falsy preference, save then load is the identity on the preferences |
| SettingsStore.ClientKeyReply | app/api/key/generate/route.ts:63-74 | the store sees ok exactly for a success, with its key, and a failure's error message |
| SettingsStore.IssuedKeyReachesStore | store/useSettingsStore.ts:133-143 | a key the route issues ends up in the store, 40 characters long, with nothing else changed; the route's 500 shows 'Failed to generate API key' and its 401 'Unauthorized', with the store unchanged |

## Left out

- The language-model calls are parameters of the handlers: the FAQ completion, the SEO analysis of the public endpoint, and the SEO-score analysis. Each is a function of what the source passes it; the public endpoint passes the caller's chosen model to both of its calls, and the SEO-score call uses one fixed model. The JSON parsing of their output is not modelled beyond its outcome: the FAQ completion either fails (the call or the parse throws, answered 500) or parses to an object whose `faqs` is present or absent. In structured mode an absent `faqs` is answered 200 without it; in text mode the rendering throws and the answer is 500. A `faqs` value that is not a list of question/answer objects is not modelled.
- PublicGenerate.PromptFor: `slice(0, 6000)` counts UTF-16 code units, while the model counts Dafny characters, so a page with characters outside the Basic Multilingual Plane is cut at a different place.
- The public endpoint's prompt is modelled by the values it embeds (`PublicGenerate.Prompt`), not by its fixed German wording or indentation.
- The page fetch is a parameter `fetch` whose None is a fetch that throws. The `/api/extract` route is not part of this model.
- Supabase authentication and cookies are not modelled. The signed-in user is an optional user id passed to each route.
- The Prisma client itself is not modelled. Tables are maps and a sequence, and transactions, cascading deletes and store failures are out. Because store failures are out, the catch-all 500 answers of the routes are not modelled, and neither is the rethrow in lib/sync-user.ts.
- The database schema is not part of this model. Two consequences follow:
  - the settings columns' defaults for a row created without them are a parameter of `Db`;
  - API keys are taken to be unique, and a rotation onto a key another user holds is refused with 500.
- Concurrency is not modelled, including the read-then-write race between two simultaneous rate-limit checks. Every call runs alone.
- Clocks and randomness are parameters: `now` in milliseconds and the random words of the key generator. RateLimit.Check: the source reads the clock twice, once for the expiry test and once for the window; the model uses the same `now` for both.
- JSON transport is not modelled: dates become ISO strings, which the store sees through a parameter `iso`. A body field sent as null and the public body's fields of unexpected JSON types are also out.
- `new Date().toISOString()` in the public endpoint's meta is not modelled; `generatedAt` is the call's `now`.
- FaqSetsRoute.CreateFaqSet: a recent duplicate is answered with the stored set's columns and no `faqs` field, because `findFirst` has no `include`; the model gives that answer as the set with an empty item list. The `seoScore` field of a saved set is not modelled.
- FaqSetsRoute.FindDuplicate: `findFirst` without `orderBy` leaves unspecified which duplicate comes back when there are several; the model takes the first in its table order. The new set's id is a parameter that the caller guarantees unused, because the database generates it.
- FaqSetsRoute.SortNewestFirst: Prisma leaves the order of sets with equal `createdAt` unspecified, and the model picks one such order. The contract therefore states only newest-first order and permutation.
- The store's persistence to local storage, the React views and hooks, the export helpers, the FAQ store and the auth schema are not part of this model.

=== FILE: api_key.dfy ===
/**
 * The API-key generator (utils/generateAPIKey.ts): one character of a
 * 62-letter alphabet per random 32-bit word. The random words, which the
 * source draws from `crypto.getRandomValues`, are an input here, so the key
 * is a function of them.
 */
module ApiKeyGenerator {

  newtype uint32 = x: int | 0 <= x < 0x1_0000_0000

  const Alphabet: string := "ABCDEFGHIJKLMNOPQRSTUVWXYZabcdefghijklmnopqrstuvwxyz0123456789"

  /** The length the generator uses when called without one. */
  const DefaultLength: nat := 32

  /** The key that the random words determine: word i picks character i. */
  ghost function KeyFromWords(words: seq<uint32>): string {
    seq(|words|, i requires 0 <= i < |words| => Alphabet[words[i] as int % |Alphabet|])
  }

  /**
   * `generateAPIKey(length)`, with `words` the `length` random words the
   * source fills its `Uint32Array` with.
   */
  method GenerateApiKey(words: seq<uint32>, length: nat := DefaultLength) returns (key: string)
    requires |words| == length
    ensures |key| == length
    ensures forall i :: 0 <= i < |key| ==> key[i] == Alphabet[words[i] as int % 62]
    ensures forall i :: 0 <= i < |key| ==> key[i] in Alphabet
    ensures key == KeyFromWords(words)
  {
    var chars := Alphabet;
    key := "";
    for i := 0 to length
      invariant |key| == i
      invariant forall j :: 0 <= j < i ==> key[j] == Alphabet[words[j] as int % 62]
    {
      key := key + [chars[words[i] as int % |chars|]];
    }
  }
}

=== FILE: common.dfy ===
/**
 * Shared vocabulary of the FAQ generator's server routes and stores:
 * optional values, route replies, question/answer pairs, and the way
 * JavaScript treats absent or empty strings.
 */
module Common {

  /** A value that may be absent (`null` or `undefined` in the source). */
  datatype Option<T> = None | Some(value: T)

  /**
   * What a route handler answers: a JSON body with status 200, or a JSON
   * `{ error }` object with a non-200 status.
   */
  datatype Reply<T> = Ok(body: T) | Error(status: int, message: string)

  /** One generated FAQ entry. */
  datatype Qa = Qa(question: string, answer: string)

  /** JavaScript truthiness of an optional string: present and not "". */
  predicate Truthy(s: Option<string>) {
    s.Some? && s.value != ""
  }

  /** `s || null`: a falsy string is stored as null. */
  function OrNull(s: Option<string>): (r: Option<string>)
    ensures Truthy(s) ==> r == s
    ensures !Truthy(s) ==> r == None
  {
    if Truthy(s) then s else None
  }

  /** `s || fallback` for a string field. */
  function OrElse(s: Option<string>, fallback: string): (r: string)
    ensures Truthy(s) ==> r == s.value
    ensures !Truthy(s) ==> r == fallback
    ensures fallback != "" ==> r != ""
  {
    if Truthy(s) then s.value else fallback
  }

  /** `n || fallback` for a numeric field: 0 and absence are falsy. */
  function OrElseNumber(n: Option<int>, fallback: int): (r: int)
    ensures n.Some? && n.value != 0 ==> r == n.value
    ensures (n.None? || n.value == 0) ==> r == fallback
    ensures fallback != 0 ==> r != 0
  {
    if n.Some? && n.value != 0 then n.value else fallback
  }
}

=== FILE: database.dfy ===
/**
 * The persistent tables the routes read and write (the Prisma client):
 * `user`, `userSettings` (preferences plus the API-key record) and
 * `faqSet` with its nested `faq` items. Tables are in-memory values held
 * by one `Db` object; every route receives it and says what it changes.
 */
module Database {
  import opened Common

  type UserId = string

  /** One row of `userSettings`: preferences plus the API-key record. */
  datatype UserSettings = UserSettings(
    userId: UserId,
    language: string,
    faqCount: int,
    tone: string,
    model: string,
    exportFormat: string,
    apiKey: Option<string>,
    apiKeyCreatedAt: Option<int>,
    apiKeyExpiresAt: Option<int>,
    apiRequestCount: int,
    apiLastRequest: Option<int>)

  /**
   * Column defaults of `userSettings`, used by a create that does not give
   * a column. The schema is not part of this model, so they are a parameter
   * of the database; the key columns are nullable and default to null.
   */
  datatype ColumnDefaults = ColumnDefaults(
    language: string,
    faqCount: int,
    tone: string,
    model: string,
    exportFormat: string,
    apiRequestCount: int)

  /** The preferences the server uses when a user has none stored. */
  const DefaultLanguage: string := "de"
  const DefaultFaqCount: int := 6
  const DefaultTone: string := "professional"
  const DefaultModel: string := "gpt-4o-mini"
  const DefaultExportFormat: string := "json"

  /** Prisma update semantics: an `undefined` field leaves the column as it is. */
  function Given<T>(field: Option<T>, current: T): (r: T)
    ensures field.Some? ==> r == field.value
    ensures field.None? ==> r == current
  {
    if field.Some? then field.value else current
  }

  /** A row created with nothing but its userId. */
  function BlankRow(d: ColumnDefaults, userId: UserId): (row: UserSettings)
    ensures row.userId == userId
    ensures row.apiKey.None? && row.apiKeyCreatedAt.None? && row.apiKeyExpiresAt.None?
    ensures row.apiLastRequest.None?
    ensures row.language == d.language && row.faqCount == d.faqCount && row.tone == d.tone
    ensures row.model == d.model && row.exportFormat == d.exportFormat
    ensures row.apiRequestCount == d.apiRequestCount
  {
    UserSettings(userId, d.language, d.faqCount, d.tone, d.model, d.exportFormat,
                 None, None, None, d.apiRequestCount, None)
  }

  /** One row of `user`. */
  datatype User = User(id: UserId, email: string, name: Option<string>, avatarUrl: Option<string>)

  /** One saved FAQ item; `order` is its position in the set. */
  datatype FaqItem = FaqItem(userId: UserId, question: string, answer: string, order: int)

  /** One saved FAQ set with its items. */
  datatype FaqSet = FaqSet(
    id: string,
    userId: UserId,
    title: string,
    sourceUrl: Option<string>,
    description: Option<string>,
    createdAt: int,
    faqs: seq<FaqItem>)

  /** `userSettings` is keyed by userId and `apiKey` is unique among rows that have one. */
  ghost predicate SettingsValid(rows: map<UserId, UserSettings>) {
    && (forall u :: u in rows ==> rows[u].userId == u)
    && (forall u, v :: u in rows && v in rows && u != v && rows[u].apiKey.Some? ==>
          rows[u].apiKey != rows[v].apiKey)
  }

  ghost predicate UsersValid(users: map<UserId, User>) {
    forall u :: u in users ==> users[u].id == u
  }

  /** Items of a set are stored in creation order, owned by the set's owner. */
  ghost predicate ItemsOrdered(s: FaqSet) {
    forall i :: 0 <= i < |s.faqs| ==> s.faqs[i].order == i && s.faqs[i].userId == s.userId
  }

  /** Set ids are unique, and every set's items are in order. */
  ghost predicate FaqSetsValid(sets: seq<FaqSet>) {
    && (forall i, j :: 0 <= i < j < |sets| ==> sets[i].id != sets[j].id)
    && (forall i :: 0 <= i < |sets| ==> ItemsOrdered(sets[i]))
  }

  /** The user whose settings row holds the API key `token`, if any. */
  ghost function KeyOwner(rows: map<UserId, UserSettings>, token: string): (r: Option<UserId>)
    ensures r.Some? ==> r.value in rows && rows[r.value].apiKey == Some(token)
    ensures r.None? ==> forall u :: u in rows ==> rows[u].apiKey != Some(token)
  {
    if exists u :: u in rows && rows[u].apiKey == Some(token) then
      Some(var u :| u in rows && rows[u].apiKey == Some(token); u)
    else None
  }

  /** With unique keys, the owner of a key is the one row holding it. */
  lemma KeyOwnerUnique(rows: map<UserId, UserSettings>, token: string, u: UserId)
    requires SettingsValid(rows)
    requires u in rows && rows[u].apiKey == Some(token)
    ensures KeyOwner(rows, token) == Some(u)
  {
  }

  /** The Prisma client: the three tables and the settings column defaults. */
  class Db {
    const defaults: ColumnDefaults
    var users: map<UserId, User>
    var settings: map<UserId, UserSettings>
    var faqSets: seq<FaqSet>

    ghost predicate Valid()
      reads this
    {
      UsersValid(users) && SettingsValid(settings) && FaqSetsValid(faqSets)
    }

    constructor (defaults: ColumnDefaults)
      ensures Valid()
      ensures this.defaults == defaults
      ensures users == map[] && settings == map[] && faqSets == []
    {
      this.defaults := defaults;
      users := map[];
      settings := map[];
      faqSets := [];
    }
  }
}

=== FILE: faq_sets.dfy ===
/**
 * Saved FAQ sets (app/api/faqs/route.ts): list the signed-in user's sets,
 * newest first; save a set with its items numbered in input order, unless
 * the same user saved the same title from the same source URL less than
 * five seconds ago; delete a set only for its owner.
 */
module FaqSetsRoute {
  import opened Common
  import opened Database

  /** The `faqs` field of a POST body. */
  datatype FaqsField = Missing | NotAnArray | Items(items: seq<Qa>)

  /** The JSON body of POST; None is a field the body leaves out. */
  datatype SetBody = SetBody(title: Option<string>, sourceUrl: Option<string>,
                             description: Option<string>, faqs: FaqsField)

  /** A saved set counts as a double-save for five seconds. */
  const DedupeWindowMs: int := 5000

  const TitleAndFaqsRequired: string := "Title and FAQs are required"
  const IdRequired: string := "FAQ set ID is required"
  const NotFoundOrForeign: string := "FAQ set not found or unauthorized"

  // ----- GET -----

  /** The sets owned by userId, in table order. */
  function OwnedBy(sets: seq<FaqSet>, userId: UserId): (r: seq<FaqSet>)
    ensures |r| <= |sets|
    ensures forall s :: s in r <==> s in sets && s.userId == userId
    ensures multiset(r) <= multiset(sets)
    decreases |sets|
  {
    if sets == [] then []
    else
      assert sets == [sets[0]] + sets[1..];
      (if sets[0].userId == userId then [sets[0]] else []) + OwnedBy(sets[1..], userId)
  }

  predicate NewestFirst(s: seq<FaqSet>) {
    forall i, j :: 0 <= i < j < |s| ==> s[i].createdAt >= s[j].createdAt
  }

  /** Items in ascending `order`. */
  predicate ItemsAscending(s: FaqSet) {
    forall i, j :: 0 <= i < j < |s.faqs| ==> s.faqs[i].order < s.faqs[j].order
  }

  function InsertNewestFirst(x: FaqSet, s: seq<FaqSet>): (r: seq<FaqSet>)
    requires NewestFirst(s)
    ensures NewestFirst(r)
    ensures multiset(r) == multiset(s) + multiset{x}
    ensures |r| == |s| + 1 && (r[0] == x || (|s| > 0 && r[0] == s[0]))
    decreases |s|
  {
    if s == [] || x.createdAt >= s[0].createdAt then [x] + s
    else
      assert s == [s[0]] + s[1..];
      [s[0]] + InsertNewestFirst(x, s[1..])
  }

  /** `orderBy: { createdAt: "desc" }`: a newest-first permutation. */
  function SortNewestFirst(s: seq<FaqSet>): (r: seq<FaqSet>)
    ensures NewestFirst(r)
    ensures multiset(r) == multiset(s)
    decreases |s|
  {
    if s == [] then []
    else
      assert s == [s[0]] + s[1..];
      InsertNewestFirst(s[0], SortNewestFirst(s[1..]))
  }

  /**
   * `GET /api/faqs`: exactly the caller's sets, newest first, each with its
   * items in ascending order.
   */
  function GetFaqSets(sets: seq<FaqSet>, user: Option<UserId>): (r: Reply<seq<FaqSet>>)
    requires FaqSetsValid(sets)
    ensures user.None? <==> r == Error(401, "Unauthorized")
    ensures r.Ok? ==> NewestFirst(r.body)
    ensures r.Ok? ==> multiset(r.body) == multiset(OwnedBy(sets, user.value))
    ensures r.Ok? ==> forall s :: s in r.body <==> s in sets && s.userId == user.value
    ensures r.Ok? ==> forall k :: 0 <= k < |r.body| ==> ItemsAscending(r.body[k])
  {
    match user
    case None => Error(401, "Unauthorized")
    case Some(u) =>
      var owned := OwnedBy(sets, u);
      var sorted := SortNewestFirst(owned);
      assert forall s :: s in sorted <==> s in owned by {
        forall s ensures s in sorted <==> s in owned {
          assert s in sorted <==> s in multiset(sorted);
          assert s in owned <==> s in multiset(owned);
        }
      }
      assert forall k :: 0 <= k < |sorted| ==> ItemsOrdered(sorted[k]) by {
        forall k | 0 <= k < |sorted| ensures ItemsOrdered(sorted[k]) {
          assert sorted[k] in sets;
          var i :| 0 <= i < |sets| && sets[i] == sorted[k];
        }
      }
      Ok(sorted)
  }

  // ----- POST -----

  /** A set saved by userId under this title from this URL at most five seconds before now. */
  predicate IsRecentDuplicate(s: FaqSet, userId: UserId, sourceUrl: string, title: string, now: int) {
    && s.userId == userId && s.sourceUrl == Some(sourceUrl) && s.title == title
    && s.createdAt >= now - DedupeWindowMs
  }

  /** `findFirst` for a recent duplicate, from position `from` on: the index of the first one. */
  function FindDuplicate(sets: seq<FaqSet>, from: nat, userId: UserId, sourceUrl: string,
                         title: string, now: int): (r: Option<nat>)
    requires from <= |sets|
    ensures r.Some? ==>
      && from <= r.value < |sets|
      && IsRecentDuplicate(sets[r.value], userId, sourceUrl, title, now)
      && forall i :: from <= i < r.value ==> !IsRecentDuplicate(sets[i], userId, sourceUrl, title, now)
    ensures r.None? ==>
      forall i :: from <= i < |sets| ==> !IsRecentDuplicate(sets[i], userId, sourceUrl, title, now)
    decreases |sets| - from
  {
    if from == |sets| then None
    else if IsRecentDuplicate(sets[from], userId, sourceUrl, title, now) then Some(from)
    else FindDuplicate(sets, from + 1, userId, sourceUrl, title, now)
  }

  /** The set POST creates: the caller owns it and its items are numbered in input order. */
  function NewSet(id: string, userId: UserId, title: string, body: SetBody, items: seq<Qa>, now: int)
    : (s: FaqSet)
    ensures s.id == id && s.userId == userId && s.title == title && s.createdAt == now
    ensures s.sourceUrl == body.sourceUrl && s.description == body.description
    ensures ItemsOrdered(s) && |s.faqs| == |items|
    ensures forall i :: 0 <= i < |items| ==>
      s.faqs[i].question == items[i].question && s.faqs[i].answer == items[i].answer
  {
    FaqSet(id, userId, title, body.sourceUrl, body.description, now,
           seq(|items|, i requires 0 <= i < |items| => FaqItem(userId, items[i].question, items[i].answer, i)))
  }

  /** The answer of POST together with the table after it. */
  datatype Posted = Posted(reply: Reply<FaqSet>, sets: seq<FaqSet>)

  /**
   * `POST /api/faqs` as a function of the table: refuse anonymous callers and
   * bodies without a title or an items array; with a source URL, answer the
   * first recent duplicate instead of saving (its columns only, as `findFirst`
   * without `include` returns it: no items); otherwise append the new set.
   */
  function CreateFaqSet(sets: seq<FaqSet>, user: Option<UserId>, body: SetBody, now: int, newId: string)
    : (p: Posted)
    requires FaqSetsValid(sets)
    requires forall k :: 0 <= k < |sets| ==> sets[k].id != newId
    ensures FaqSetsValid(p.sets)
    ensures p.reply.Error? ==> p.sets == sets
    ensures user.None? ==> p.reply == Error(401, "Unauthorized")
    ensures user.Some? ==>
      (p.reply == Error(400, TitleAndFaqsRequired) <==> !(Truthy(body.title) && body.faqs.Items?))
    ensures user.Some? && Truthy(body.title) && body.faqs.Items? && Truthy(body.sourceUrl)
      && (exists k :: 0 <= k < |sets| && IsRecentDuplicate(sets[k], user.value, body.sourceUrl.value, body.title.value, now))
      ==> (&& p.sets == sets
           && exists k ::
                && 0 <= k < |sets|
                && IsRecentDuplicate(sets[k], user.value, body.sourceUrl.value, body.title.value, now)
                && (forall i :: 0 <= i < k ==>
                      !IsRecentDuplicate(sets[i], user.value, body.sourceUrl.value, body.title.value, now))
                && p.reply == Ok(sets[k].(faqs := [])))
    ensures user.Some? && Truthy(body.title) && body.faqs.Items?
      && (!Truthy(body.sourceUrl) ||
          forall k :: 0 <= k < |sets| ==>
            !IsRecentDuplicate(sets[k], user.value, body.sourceUrl.value, body.title.value, now))
      ==> var created := NewSet(newId, user.value, body.title.value, body, body.faqs.items, now);
          p == Posted(Ok(created), sets + [created])
    ensures p.sets == sets || (p.reply.Ok? && p.sets == sets + [p.reply.body])
  {
    if user.None? then Posted(Error(401, "Unauthorized"), sets)
    else if !Truthy(body.title) || !body.faqs.Items? then Posted(Error(400, TitleAndFaqsRequired), sets)
    else
      var u, title := user.value, body.title.value;
      var dup := if Truthy(body.sourceUrl) then FindDuplicate(sets, 0, u, body.sourceUrl.value, title, now)
                 else None;
      if dup.Some? then Posted(Ok(sets[dup.value].(faqs := [])), sets)
      else
        var created := NewSet(newId, u, title, body, body.faqs.items, now);
        Posted(Ok(created), sets + [created])
  }

  // ----- DELETE -----

  /** The position of the set with this id, if there is one. */
  function IndexOfId(sets: seq<FaqSet>, from: nat, id: string): (r: Option<nat>)
    requires from <= |sets|
    ensures r.Some? ==> from <= r.value < |sets| && sets[r.value].id == id
    ensures r.None? ==> forall i :: from <= i < |sets| ==> sets[i].id != id
    decreases |sets| - from
  {
    if from == |sets| then None
    else if sets[from].id == id then Some(from)
    else IndexOfId(sets, from + 1, id)
  }

  /** The answer of DELETE together with the table after it. */
  datatype Removed = Removed(reply: Reply<()>, sets: seq<FaqSet>)

  /**
   * `DELETE /api/faqs?id=…` as a function of the table: only the owner of an
   * existing set may delete it, and then exactly that set goes.
   */
  function DeleteFaqSet(sets: seq<FaqSet>, user: Option<UserId>, id: Option<string>): (r: Removed)
    requires FaqSetsValid(sets)
    ensures FaqSetsValid(r.sets)
    ensures r.reply.Error? <==> r.sets == sets
    ensures user.None? ==> r.reply == Error(401, "Unauthorized")
    ensures user.Some? && !Truthy(id) ==> r.reply == Error(400, IdRequired)
    ensures user.Some? && Truthy(id) &&
      (forall k :: 0 <= k < |sets| ==> sets[k].id != id.value || sets[k].userId != user.value)
      ==> r.reply == Error(404, NotFoundOrForeign)
    ensures r.reply.Ok? ==> exists k ::
      && 0 <= k < |sets| && sets[k].id == id.value && sets[k].userId == user.value
      && r.sets == sets[..k] + sets[k + 1..]
    ensures r.reply.Ok? ==> |r.sets| == |sets| - 1 && forall s :: s in r.sets ==> s.id != id.value
    ensures user.Some? && Truthy(id) ==>
      forall k :: 0 <= k < |sets| && sets[k].id == id.value && sets[k].userId == user.value ==>
        r.reply.Ok? && r.sets == sets[..k] + sets[k + 1..]
  {
    if user.None? then Removed(Error(401, "Unauthorized"), sets)
    else if !Truthy(id) then Removed(Error(400, IdRequired), sets)
    else
      match IndexOfId(sets, 0, id.value)
      case None => Removed(Error(404, NotFoundOrForeign), sets)
      case Some(k) =>
        if sets[k].userId != user.value then Removed(Error(404, NotFoundOrForeign), sets)
        else
          var rest := sets[..k] + sets[k + 1..];
          assert forall i :: 0 <= i < |rest| ==> rest[i] == if i < k then sets[i] else sets[i + 1];
          assert |rest| < |sets|;
          Removed(Ok(()), rest)
  }

  // ----- the routes on the database -----

  /** `POST /api/faqs`; the database supplies the new set's unused id and its creation time. */
  method PostFaqSet(db: Db, user: Option<UserId>, body: SetBody, now: int, newId: string)
    returns (reply: Reply<FaqSet>)
    requires db.Valid()
    requires forall k :: 0 <= k < |db.faqSets| ==> db.faqSets[k].id != newId
    modifies db
    ensures db.Valid()
    ensures db.users == old(db.users) && db.settings == old(db.settings)
    ensures Posted(reply, db.faqSets) == CreateFaqSet(old(db.faqSets), user, body, now, newId)
  {
    if user.None? {
      return Error(401, "Unauthorized");
    }
    if !Truthy(body.title) || !body.faqs.Items? {
      return Error(400, TitleAndFaqsRequired);
    }
    var userId, title := user.value, body.title.value;
    if Truthy(body.sourceUrl) {
      var existing := FindDuplicate(db.faqSets, 0, userId, body.sourceUrl.value, title, now);
      if existing.Some? {
        return Ok(db.faqSets[existing.value].(faqs := []));
      }
    }
    var faqSet := NewSet(newId, userId, title, body, body.faqs.items, now);
    db.faqSets := db.faqSets + [faqSet];
    reply := Ok(faqSet);
  }

  /** `DELETE /api/faqs?id=…`. */
  method DeleteFaqSetRoute(db: Db, user: Option<UserId>, id: Option<string>) returns (reply: Reply<()>)
    requires db.Valid()
    modifies db
    ensures db.Valid()
    ensures db.users == old(db.users) && db.settings == old(db.settings)
    ensures Removed(reply, db.faqSets) == DeleteFaqSet(old(db.faqSets), user, id)
  {
    var removed := DeleteFaqSet(db.faqSets, user, id);
    db.faqSets := removed.sets;
    reply := removed.reply;
  }
}

=== FILE: key_route.dfy ===
/**
 * Key rotation (app/api/key/generate/route.ts): an authenticated user gets a
 * fresh 40-character key valid for 30 days. The upsert replaces the key
 * columns of the user's settings row and nothing else, so the request
 * counter and the window anchor survive rotation and a new key cannot be
 * used to escape the rate limit.
 */
module KeyRoute {
  import opened Common
  import opened Database
  import opened ApiKeyGenerator
  import RateLimit

  const KeyLength: nat := 40
  /** Thirty days in milliseconds. */
  const KeyLifetimeMs: int := 30 * 24 * 60 * 60 * 1000

  /** `{ success: true, apiKey, expiresAt }`. */
  datatype Issued = Issued(apiKey: string, expiresAt: int)

  const FailedError: string := "Failed to generate API key"

  /**
   * The upsert of a new key for userId: update only the three key columns of
   * an existing row, or create a row with a zero count and no anchor. The
   * store refuses it (None) when another user's row already holds the key,
   * since API keys are unique.
   */
  ghost function Rotate(rows: map<UserId, UserSettings>, d: ColumnDefaults, userId: UserId,
                        newKey: string, now: int): (r: Option<map<UserId, UserSettings>>)
    requires SettingsValid(rows)
    ensures r.Some? <==> forall v :: v in rows && v != userId ==> rows[v].apiKey != Some(newKey)
    ensures r.Some? ==> SettingsValid(r.value) && r.value.Keys == rows.Keys + {userId}
    ensures r.Some? ==> forall v :: v in rows && v != userId ==> r.value[v] == rows[v]
    ensures r.Some? ==>
      var row := r.value[userId];
      && row.apiKey == Some(newKey)
      && row.apiKeyCreatedAt == Some(now)
      && row.apiKeyExpiresAt == Some(now + KeyLifetimeMs)
    ensures r.Some? && userId in rows ==>
      var row := r.value[userId];
      row.(apiKey := rows[userId].apiKey, apiKeyCreatedAt := rows[userId].apiKeyCreatedAt,
           apiKeyExpiresAt := rows[userId].apiKeyExpiresAt) == rows[userId]
    ensures r.Some? && userId !in rows ==>
      r.value[userId].apiRequestCount == 0 && r.value[userId].apiLastRequest.None?
  {
    if exists v :: v in rows && v != userId && rows[v].apiKey == Some(newKey) then None
    else
      var base := if userId in rows then rows[userId]
                  else BlankRow(d, userId).(apiRequestCount := 0, apiLastRequest := None);
      Some(rows[userId := base.(apiKey := Some(newKey), apiKeyCreatedAt := Some(now),
                                apiKeyExpiresAt := Some(now + KeyLifetimeMs))])
  }

  /** `POST /api/key/generate` for the signed-in user (None when nobody is signed in). */
  method GenerateKey(db: Db, user: Option<UserId>, now: int, words: seq<uint32>)
    returns (reply: Reply<Issued>)
    requires db.Valid() && |words| == KeyLength
    modifies db
    ensures db.Valid()
    ensures db.users == old(db.users) && db.faqSets == old(db.faqSets)
    ensures user.None? ==> reply == Error(401, "Unauthorized") && db.settings == old(db.settings)
    ensures user.Some? ==>
      var rotated := Rotate(old(db.settings), db.defaults, user.value, KeyFromWords(words), now);
      if rotated.Some? then
        db.settings == rotated.value && reply == Ok(Issued(KeyFromWords(words), now + KeyLifetimeMs))
      else
        db.settings == old(db.settings) && reply == Error(500, FailedError)
    ensures reply.Ok? ==> |reply.body.apiKey| == KeyLength
  {
    if user.None? {
      return Error(401, "Unauthorized");
    }
    var userId := user.value;
    var newApiKey := GenerateApiKey(words, KeyLength);
    var expiresAt := now + KeyLifetimeMs;
    if exists v :: v in db.settings && v != userId && db.settings[v].apiKey == Some(newApiKey) {
      return Error(500, FailedError);
    }
    var row;
    if userId in db.settings {
      row := db.settings[userId].(apiKey := Some(newApiKey), apiKeyCreatedAt := Some(now),
                                  apiKeyExpiresAt := Some(expiresAt));
    } else {
      row := UserSettings(userId, db.defaults.language, db.defaults.faqCount, db.defaults.tone,
                          db.defaults.model, db.defaults.exportFormat,
                          Some(newApiKey), Some(now), Some(expiresAt), 0, None);
    }
    db.settings := db.settings[userId := row];
    reply := Ok(Issued(row.apiKey.value, row.apiKeyExpiresAt.value));
  }

  /** After rotation the previous key resolves to nobody: a check with it is an invalid-key rejection. */
  lemma StaleKeyRejected(rows: map<UserId, UserSettings>, d: ColumnDefaults, u: UserId,
                         oldKey: string, newKey: string, now: int, t: int)
    requires SettingsValid(rows)
    requires u in rows && rows[u].apiKey == Some(oldKey) && oldKey != newKey
    requires Rotate(rows, d, u, newKey, now).Some?
    ensures var rows' := Rotate(rows, d, u, newKey, now).value;
      RateLimit.Check(rows', oldKey, t) == RateLimit.Checked(RateLimit.Rejected(RateLimit.InvalidKeyError), rows')
  {
    var rows' := Rotate(rows, d, u, newKey, now).value;
    forall v | v in rows'
      ensures rows'[v].apiKey != Some(oldKey)
    {
      if v != u {
        assert v in rows && rows'[v] == rows[v];
      }
    }
    RateLimit.UnknownKeyRejected(rows', oldKey, t);
  }

  /**
   * Rotation cannot bypass the limit: while the old key would still be
   * valid and the new key has not expired, a check with the new key after
   * rotation gives the same answer and leaves the same count and anchor as a
   * check with the old key would have without rotation.
   */
  lemma RotationKeepsRateLimit(rows: map<UserId, UserSettings>, d: ColumnDefaults, u: UserId,
                               oldKey: string, newKey: string, now: int, t: int)
    requires SettingsValid(rows)
    requires u in rows && rows[u].apiKey == Some(oldKey) && !RateLimit.Expired(rows[u], t)
    requires Rotate(rows, d, u, newKey, now).Some?
    requires t <= now + KeyLifetimeMs
    ensures var rows' := Rotate(rows, d, u, newKey, now).value;
      var after := RateLimit.Check(rows', newKey, t);
      var before := RateLimit.Check(rows, oldKey, t);
      && after.result == before.result
      && after.rows[u].apiRequestCount == before.rows[u].apiRequestCount
      && after.rows[u].apiLastRequest == before.rows[u].apiLastRequest
  {
    var rows' := Rotate(rows, d, u, newKey, now).value;
    assert rows'[u].apiRequestCount == rows[u].apiRequestCount;
    assert rows'[u].apiLastRequest == rows[u].apiLastRequest;
    RateLimit.SameCountersSameDecision(rows, oldKey, rows', newKey, t, u);
  }
}

=== FILE: public_generate.dfy ===
/**
 * The public generation endpoint (app/api/public/generate/route.ts): read a
 * bearer key from the Authorization header, pass it through the rate-limit
 * gatekeeper, fill in the body's defaults, obtain the page text (the body's
 * `content`, or the fetched page with its tags blanked out), and hand the
 * first 6000 characters to the language model. The fetch and the two model
 * calls are parameters of the handler.
 */
module PublicGenerate {
  import opened Common
  import opened Text
  import opened Database
  import opened RateLimit

  // ----- the Authorization header -----

  const BearerPrefix: string := "Bearer "
  const MissingKeyError: string := "Unauthorized: Missing API key. Use 'Authorization: Bearer YOUR_API_KEY'"

  /**
   * The key of a bearer header: `auth.split(" ")[1]` once the header is known
   * to start with "Bearer ". It is the run of characters after that prefix
   * up to the next space. An absent header or another scheme gives None.
   */
  function BearerKey(authorization: Option<string>): (key: Option<string>)
    ensures key.Some? <==> authorization.Some? && StartsWith(authorization.value, BearerPrefix)
    ensures key.Some? ==>
      var rest := authorization.value[|BearerPrefix|..];
      && key.value <= rest && ' ' !in key.value
      && (|key.value| == |rest| || rest[|key.value|] == ' ')
  {
    if authorization.None? || !StartsWith(authorization.value, BearerPrefix) then None
    else
      var header := authorization.value;
      var rest := header[|BearerPrefix|..];
      assert header == "Bearer" + [' '] + rest;
      SplitAfterField("Bearer", ' ', rest);
      Some(Split(header, ' ')[1])
  }

  /** A header "Bearer " + k carries exactly the key k when k has no space. */
  lemma BearerKeyOfKey(k: string)
    requires ' ' !in k
    ensures BearerKey(Some(BearerPrefix + k)) == Some(k)
  {
    var header := BearerPrefix + k;
    assert header[|BearerPrefix|..] == k;
    var key := BearerKey(Some(header)).value;
    assert |key| == |k| by {
      assert forall i :: 0 <= i < |k| ==> k[i] != ' ';
    }
    assert key == k;
  }

  // ----- the status of a refused call -----

  /** 429 for an error that mentions the rate limit, 401 for every other refusal. */
  function RejectionStatus(error: string): (status: int)
    ensures status == 429 || status == 401
    ensures status == 429 <==> Contains(error, "Rate limit")
  {
    if Contains(error, "Rate limit") then 429 else 401
  }

  /** A rate-limit refusal is answered 429. */
  lemma RateLimitedIs429(minutes: nat)
    ensures RejectionStatus(RateLimitedError(minutes)) == 429
  {
    var e := RateLimitedError(minutes);
    assert e[..10] == e[..19][..10];
    assert StartsWith(e, "Rate limit");
  }

  /** The gatekeeper's three other refusals, the failing store included, are answered 401. */
  lemma OtherRefusalsAre401(e: string)
    requires e == InvalidKeyError || e == ExpiredKeyError || e == InternalError
    ensures RejectionStatus(e) == 401
  {
    assert forall i :: 0 <= i < |e| ==> e[i] != 'R';
    NotContainsWithoutFirstChar(e, "Rate limit");
  }

  /** The key's owner is known, the key is current, the window is open and the cap reached. */
  ghost predicate OverCap(rows: map<UserId, UserSettings>, token: string, now: int) {
    var owner := KeyOwner(rows, token);
    && owner.Some?
    && var row := rows[owner.value];
    && !Expired(row, now) && !WindowOver(row, now) && row.apiRequestCount >= MaxRequestsPerHour
  }

  /** A refused call is answered 429 exactly when it was refused for the rate limit. */
  lemma TooManyRequestsIffOverCap(rows: map<UserId, UserSettings>, token: string, now: int)
    requires SettingsValid(rows)
    requires Check(rows, token, now).result.Rejected?
    ensures RejectionStatus(Check(rows, token, now).result.error) == 429 <==> OverCap(rows, token, now)
  {
    var owner := KeyOwner(rows, token);
    if owner.Some? {
      var row := rows[owner.value];
      if Expired(row, now) {
        OtherRefusalsAre401(ExpiredKeyError);
      } else {
        assert !WindowOver(row, now) && row.apiRequestCount >= MaxRequestsPerHour;
        RateLimitedIs429(MinutesUntilReset(now - row.apiLastRequest.value));
      }
    } else {
      OtherRefusalsAre401(InvalidKeyError);
    }
  }

  // ----- the request body -----

  /** The JSON body; None is a field the body leaves out. */
  datatype GenerateBody = GenerateBody(
    url: Option<string>,
    content: Option<string>,
    language: Option<string>,
    count: Option<int>,
    tone: Option<string>,
    structured: Option<bool>,
    model: Option<string>,
    includeSeo: Option<bool>,
    topics: Option<seq<string>>)

  /** The generation options after destructuring with defaults. */
  datatype Options = Options(
    language: string,
    count: int,
    tone: string,
    structured: bool,
    model: string,
    includeSeo: bool,
    topics: seq<string>)

  const DefaultOptions: Options := Options("de", 6, "neutral", true, "gpt-5-mini", false, [])

  /**
   * Destructuring defaults: a field the body leaves out takes its default,
   * a field the body gives is kept as given, even when it is falsy.
   */
  function WithDefaults(body: GenerateBody): (o: Options)
    ensures body.language.Some? ==> o.language == body.language.value
    ensures body.language.None? ==> o.language == DefaultOptions.language
    ensures body.count.Some? ==> o.count == body.count.value
    ensures body.count.None? ==> o.count == DefaultOptions.count
    ensures body.tone.Some? ==> o.tone == body.tone.value
    ensures body.tone.None? ==> o.tone == DefaultOptions.tone
    ensures body.structured.Some? ==> o.structured == body.structured.value
    ensures body.structured.None? ==> o.structured == DefaultOptions.structured
    ensures body.model.Some? ==> o.model == body.model.value
    ensures body.model.None? ==> o.model == DefaultOptions.model
    ensures body.includeSeo.Some? ==> o.includeSeo == body.includeSeo.value
    ensures body.includeSeo.None? ==> o.includeSeo == DefaultOptions.includeSeo
    ensures body.topics.Some? ==> o.topics == body.topics.value
    ensures body.topics.None? ==> o.topics == DefaultOptions.topics
  {
    Options(Given(body.language, DefaultOptions.language),
            Given(body.count, DefaultOptions.count),
            Given(body.tone, DefaultOptions.tone),
            Given(body.structured, DefaultOptions.structured),
            Given(body.model, DefaultOptions.model),
            Given(body.includeSeo, DefaultOptions.includeSeo),
            Given(body.topics, DefaultOptions.topics))
  }

  // ----- the page text -----

  /** What follows the first '>' of s; nothing when s has none (the tag runs to the end). */
  function AfterTag(s: string): (r: string)
    ensures |r| <= |s| && r == s[|s| - |r|..]
    ensures '>' !in s ==> r == []
    decreases |s|
  {
    if s == [] then []
    else if s[0] == '>' then s[1..]
    else AfterTag(s[1..])
  }

  /**
   * `html.replace(/<[^>]*>?/gm, " ")`: every '<' together with what follows
   * it up to and including the next '>' (or to the end) becomes one space.
   */
  function StripTags(html: string): (text: string)
    ensures '<' !in text
    ensures |text| <= |html|
    ensures '<' !in html ==> text == html
    decreases |html|
  {
    if html == [] then []
    else if html[0] == '<' then [' '] + StripTags(AfterTag(html[1..]))
    else [html[0]] + StripTags(html[1..])
  }

  /** Text without '<' passes through unchanged in front of whatever follows it. */
  lemma {:induction false} StripTagsPlainPrefix(a: string, b: string)
    requires '<' !in a
    ensures StripTags(a + b) == a + StripTags(b)
    decreases |a|
  {
    if a == [] {
      assert a + b == b;
    } else {
      assert a[0] in a;
      var ab := a + b;
      assert ab[0] == a[0] != '<';
      assert ab[1..] == a[1..] + b;
      StripTagsPlainPrefix(a[1..], b);
      calc {
        StripTags(ab);
        [a[0]] + StripTags(a[1..] + b);
        [a[0]] + (a[1..] + StripTags(b));
        ([a[0]] + a[1..]) + StripTags(b);
        { assert [a[0]] + a[1..] == a; }
        a + StripTags(b);
      }
    }
  }

  /** A tag whose inside has no '>' ends at its first '>'. */
  lemma {:induction false} AfterClosedTag(t: string, b: string)
    requires '>' !in t
    ensures AfterTag(t + ['>'] + b) == b
    decreases |t|
  {
    if t != [] {
      assert (t + ['>'] + b)[1..] == t[1..] + ['>'] + b;
      AfterClosedTag(t[1..], b);
    } else {
      assert (['>'] + b)[1..] == b;
    }
  }

  /** A complete tag at the front becomes exactly one space. */
  lemma StripLeadingTag(t: string, b: string)
    requires '>' !in t
    ensures StripTags(['<'] + t + ['>'] + b) == [' '] + StripTags(b)
  {
    var tag := ['<'] + t + ['>'] + b;
    assert tag[0] == '<';
    assert tag[1..] == t + ['>'] + b;
    AfterClosedTag(t, b);
  }

  /** One complete tag after plain text becomes exactly one space. */
  lemma StripOneTag(a: string, t: string, b: string)
    requires '<' !in a && '>' !in t
    ensures StripTags(a + ['<'] + t + ['>'] + b) == a + [' '] + StripTags(b)
  {
    var tag := ['<'] + t + ['>'] + b;
    assert a + ['<'] + t + ['>'] + b == a + tag;
    StripTagsPlainPrefix(a, tag);
    StripLeadingTag(t, b);
  }

  /** A tag left open at the end runs to the end and becomes one space. */
  lemma StripTrailingOpenTag(a: string, t: string)
    requires '<' !in a && '>' !in t
    ensures StripTags(a + ['<'] + t) == a + [' ']
  {
    var tag := ['<'] + t;
    assert a + ['<'] + t == a + tag;
    StripTagsPlainPrefix(a, tag);
    assert tag[1..] == t;
  }

  /** `content.slice(0, 6000)`: how much page text the prompt embeds. */
  const ExcerptLength: nat := 6000

  /** "Themenfokus" of the prompt: the topics joined by ", ", or "keiner" without topics. */
  function TopicFocus(topics: seq<string>): (focus: string)
    ensures |topics| == 0 ==> focus == "keiner"
    ensures |topics| == 1 ==> focus == topics[0]
    ensures |topics| >= 1 ==> |focus| + 2 == SumLengths(topics) + 2 * |topics|
  {
    if |topics| > 0 then
      JoinLength(topics, ", ");
      Join(topics, ", ")
    else "keiner"
  }

  /** A further topic in front adds that topic and one ", " before the rest. */
  lemma TopicFocusCons(t: string, topics: seq<string>)
    requires |topics| >= 1
    ensures TopicFocus([t] + topics) == t + ", " + TopicFocus(topics)
  {
    JoinCons(t, topics, ", ");
  }

  /** A further topic at the end adds one ", " and that topic after the rest. */
  lemma TopicFocusSnoc(topics: seq<string>, t: string)
    requires |topics| >= 1
    ensures TopicFocus(topics + [t]) == TopicFocus(topics) + ", " + t
  {
    var whole := topics + [t];
    assert whole[..|whole| - 1] == topics && whole[|whole| - 1] == t;
  }

  /**
   * The values the prompt embeds, together with the model the completion is
   * asked of; the prompt's fixed German wording is not modelled.
   */
  datatype Prompt = Prompt(model: string, count: int, language: string, tone: string,
                           topicFocus: string, excerpt: string)

  /** The prompt for these options and this page text. */
  function PromptFor(o: Options, pageText: string): (p: Prompt)
    ensures p.model == o.model
    ensures p.count == o.count && p.language == o.language && p.tone == o.tone
    ensures p.topicFocus == TopicFocus(o.topics)
    ensures |p.excerpt| == (if |pageText| < ExcerptLength then |pageText| else ExcerptLength)
    ensures p.excerpt <= pageText
  {
    Prompt(o.model, o.count, o.language, o.tone, TopicFocus(o.topics), Take(pageText, ExcerptLength))
  }

  // ----- the text rendering -----

  /** One entry of the plain-text answer: "Q{i+1}: question\nA: answer". */
  function QaEntry(i: nat, f: Qa): string {
    "Q" + NatToString(i + 1) + ": " + f.question + "\nA: " + f.answer
  }

  /** `faqs.map(QaEntry).join("\n\n")`. */
  function QaText(faqs: seq<Qa>): (text: string)
    ensures text == "" <==> |faqs| == 0
  {
    var entries := MapIndexed(faqs, QaEntry);
    if |entries| == 0 then Join(entries, "\n\n")
    else
      JoinEndsWithLast(entries, "\n\n");
      Join(entries, "\n\n")
  }

  /** A single entry is rendered as "Q1: …\nA: …" with nothing around it. */
  lemma QaTextOne(f: Qa)
    ensures QaText([f]) == "Q1: " + f.question + "\nA: " + f.answer
  {
    assert MapIndexed([f], QaEntry) == [QaEntry(0, f)];
  }

  /** One more entry adds one blank line and that entry, numbered |faqs| + 1. */
  lemma QaTextSnoc(faqs: seq<Qa>, f: Qa)
    requires |faqs| >= 1
    ensures QaText(faqs + [f]) == QaText(faqs) + "\n\n" + QaEntry(|faqs|, f)
  {
    JoinMappedSnoc(faqs, f, QaEntry, "\n\n");
  }

  // ----- the handler -----

  const MissingInputError: string := "You must provide either 'url' or 'content' "
  const FetchFailedError: string := "Failed to fetch Website"
  const GenerationFailedError: string := "Internal error while generating FAQ"

  /**
   * What the FAQ completion gives: Failed when the call or the JSON parsing
   * throws; otherwise the parsed object's `faqs`, None when it has none.
   */
  datatype Completion = Failed | Parsed(faqs: Option<seq<Qa>>)

  /** `meta` of a structured answer; `generatedAt` is the time of the call. */
  datatype Meta = Meta(language: string, count: int, model: string, tone: string,
                       topics: seq<string>, generatedAt: int)

  /**
   * The two shapes of a successful answer; `seo` is null unless it was asked
   * for and came back, and a structured answer's `faqs` is whatever the
   * completion parsed to, undefined (None) included.
   */
  datatype Generated =
    | FaqList(faqs: Option<seq<Qa>>, seo: Option<string>, meta: Meta)
    | FaqText(faqText: string, seo: Option<string>)

  /**
   * The page text the prompt is built from: `content` when it is given,
   * otherwise the fetched page with its tags blanked out; None when that
   * fetch fails.
   */
  function PageText(body: GenerateBody, fetch: string -> Option<string>): (r: Option<string>)
    requires Truthy(body.url) || Truthy(body.content)
    ensures Truthy(body.content) ==> r == body.content
    ensures !Truthy(body.content) ==> (r.None? <==> fetch(body.url.value).None?)
    ensures !Truthy(body.content) && r.Some? ==> '<' !in r.value
    ensures !Truthy(body.content) && fetch(body.url.value).Some? ==>
      r == Some(StripTags(fetch(body.url.value).value))
  {
    if Truthy(body.content) then body.content
    else
      match fetch(body.url.value)
      case None => None
      case Some(html) => Some(StripTags(html))
  }

  /**
   * What an accepted call answers. `llm` is the FAQ completion for a prompt;
   * `seoLlm` the SEO analysis, asked of the chosen model, of the parsed
   * `faqs` (None when it fails, which the source swallows). In text mode a
   * completion without `faqs` makes the rendering throw, which is answered
   * like a failed completion.
   */
  function Answer(body: GenerateBody, now: int, fetch: string -> Option<string>,
                  llm: Prompt -> Completion, seoLlm: (string, Option<seq<Qa>>) -> Option<string>)
    : (r: Reply<Generated>)
    ensures r == Error(404, MissingInputError) <==> !Truthy(body.url) && !Truthy(body.content)
    ensures r.Error? ==> r.status == 404 || r.status == 500
    ensures !Truthy(body.content) && Truthy(body.url) && fetch(body.url.value).None? ==>
      r == Error(500, FetchFailedError)
    ensures (Truthy(body.url) || Truthy(body.content)) && PageText(body, fetch).Some? ==>
      var o := WithDefaults(body);
      var c := llm(PromptFor(o, PageText(body, fetch).value));
      && (r.Ok? <==> c.Parsed? && (o.structured || c.faqs.Some?))
      && (r.Error? ==> r == Error(500, GenerationFailedError))
    ensures r.Ok? ==>
      var o := WithDefaults(body);
      var c := llm(PromptFor(o, PageText(body, fetch).value));
      && c.Parsed?
      && r.body.seo == (if o.includeSeo then seoLlm(o.model, c.faqs) else None)
      && (o.structured <==> r.body.FaqList?)
      && (r.body.FaqList? ==>
            r.body.faqs == c.faqs && r.body.meta == Meta(o.language, o.count, o.model, o.tone, o.topics, now))
      && (r.body.FaqText? ==> c.faqs.Some? && r.body.faqText == QaText(c.faqs.value))
  {
    var o := WithDefaults(body);
    if !Truthy(body.url) && !Truthy(body.content) then Error(404, MissingInputError)
    else
      match PageText(body, fetch)
      case None => Error(500, FetchFailedError)
      case Some(page) =>
        match llm(PromptFor(o, page))
        case Failed => Error(500, GenerationFailedError)
        case Parsed(faqs) =>
          var seo := if o.includeSeo then seoLlm(o.model, faqs) else None;
          if o.structured then Ok(FaqList(faqs, seo, Meta(o.language, o.count, o.model, o.tone, o.topics, now)))
          else if faqs.None? then Error(500, GenerationFailedError)
          else Ok(FaqText(QaText(faqs.value), seo))
  }

  /** The answer once the gatekeeper has decided. */
  function Respond(check: CheckResult, body: GenerateBody, now: int, fetch: string -> Option<string>,
                   llm: Prompt -> Completion, seoLlm: (string, Option<seq<Qa>>) -> Option<string>): (r: Reply<Generated>)
    ensures check.Rejected? ==>
      r.Error? && r.status == RejectionStatus(check.error) && r.message == OrElse(Some(check.error), "Unauthorized")
    ensures check.Accepted? ==> r == Answer(body, now, fetch, llm, seoLlm)
  {
    match check
    case Rejected(error) => Error(RejectionStatus(error), OrElse(Some(error), "Unauthorized"))
    case Accepted(_) => Answer(body, now, fetch, llm, seoLlm)
  }

  /**
   * A call with neither url nor content is refused with 404 only after the
   * gatekeeper has accepted it, so it still uses up one of the hour's calls:
   * the owner's row has changed and its anchor is now.
   */
  lemma MissingInputStillCounted(rows: map<UserId, UserSettings>, token: string, now: int,
                                 body: GenerateBody, fetch: string -> Option<string>,
                                 llm: Prompt -> Completion, seoLlm: (string, Option<seq<Qa>>) -> Option<string>)
    requires SettingsValid(rows)
    requires Check(rows, token, now).result.Accepted?
    requires !Truthy(body.url) && !Truthy(body.content)
    ensures var c := Check(rows, token, now);
      var u := c.result.userId;
      && Respond(c.result, body, now, fetch, llm, seoLlm) == Error(404, MissingInputError)
      && u in rows && c.rows[u] != rows[u]
      && c.rows[u].apiLastRequest == Some(now)
  {
    var c := Check(rows, token, now);
    var u := c.result.userId;
    KeyOwnerUnique(rows, token, u);
    var row := rows[u];
    if WindowOver(row, now) {
      assert c.rows[u] == row.(apiRequestCount := 1, apiLastRequest := Some(now));
      assert row.apiLastRequest != Some(now);
    } else {
      assert c.rows[u] == row.(apiRequestCount := row.apiRequestCount + 1, apiLastRequest := Some(now));
    }
  }

  /**
   * `POST /api/public/generate`: check the header, let the gatekeeper count
   * the call, then answer it. The settings table changes only through the
   * gatekeeper.
   */
  method PostGenerate(db: Db, authorization: Option<string>, body: GenerateBody, now: int,
                      fetch: string -> Option<string>, llm: Prompt -> Completion,
                      seoLlm: (string, Option<seq<Qa>>) -> Option<string>) returns (reply: Reply<Generated>)
    requires db.Valid()
    modifies db
    ensures db.Valid()
    ensures db.users == old(db.users) && db.faqSets == old(db.faqSets)
    ensures BearerKey(authorization).None? ==>
      reply == Error(401, MissingKeyError) && db.settings == old(db.settings)
    ensures BearerKey(authorization).Some? ==>
      var c := Check(old(db.settings), BearerKey(authorization).value, now);
      db.settings == c.rows && reply == Respond(c.result, body, now, fetch, llm, seoLlm)
  {
    var apiKey := BearerKey(authorization);
    if apiKey.None? {
      return Error(401, MissingKeyError);
    }
    var rateLimitCheck := CheckRateLimit(db, apiKey.value, now);
    if rateLimitCheck.Rejected? {
      var error := rateLimitCheck.error;
      return Error(RejectionStatus(error), OrElse(Some(error), "Unauthorized"));
    }
    var o := WithDefaults(body);
    if !Truthy(body.url) && !Truthy(body.content) {
      return Error(404, MissingInputError);
    }
    var websiteContent := body.content;
    if Truthy(body.url) && !Truthy(body.content) {
      var html := fetch(body.url.value);
      if html.None? {
        return Error(500, FetchFailedError);
      }
      websiteContent := Some(StripTags(html.value));
    }
    var completion := llm(PromptFor(o, websiteContent.value));
    if completion.Failed? {
      return Error(500, GenerationFailedError);
    }
    var structuredFaq := completion.faqs;
    var seoData := if o.includeSeo then seoLlm(o.model, structuredFaq) else None;
    if !o.structured {
      if structuredFaq.None? {
        return Error(500, GenerationFailedError);
      }
      return Ok(FaqText(QaText(structuredFaq.value), seoData));
    }
    reply := Ok(FaqList(structuredFaq, seoData, Meta(o.language, o.count, o.model, o.tone, o.topics, now)));
  }
}

=== FILE: rate_limit.dfy ===
/**
 * The public API's gatekeeper (lib/rate-limit.ts): resolve a bearer token to
 * the settings row that holds it, reject unknown and expired keys, and meter
 * accepted calls per user with at most 15 calls per hour. The window is a
 * sliding anchor: every accepted call moves `apiLastRequest` to now, and a
 * fresh window starts only when more than one hour has passed since the last
 * accepted call.
 */
module RateLimit {
  import opened Common
  import opened Text
  import opened Database

  /** One hour in milliseconds. */
  const WindowMs: int := 60 * 60 * 1000
  const MaxRequestsPerHour: nat := 15

  /** `{ isValid: true, userId }` or `{ isValid: false, error }`. */
  datatype CheckResult = Accepted(userId: UserId) | Rejected(error: string)

  /** The answer of a check together with the settings table after it. */
  datatype Checked = Checked(result: CheckResult, rows: map<UserId, UserSettings>)

  const InvalidKeyError: string := "Invalid API key"
  const ExpiredKeyError: string := "API key has expired"
  /** The answer of the source's catch-all for a failing store. */
  const InternalError: string := "Internal server error"

  /** The fixed text in front of the minutes in the rate-limit message, naming the cap. */
  const RateLimitedLead: string :=
    "Rate limit exceeded (" + NatToString(MaxRequestsPerHour) + " requests/hour). Try again in "
  /** The fixed text after the minutes. */
  const RateLimitedTail: string := " minutes."

  /** The rate-limit message, naming the cap and the minutes until the window resets. */
  function RateLimitedError(minutes: nat): (e: string)
    ensures StartsWith(e, "Rate limit exceeded")
  {
    RateLimitedLead + NatToString(minutes) + RateLimitedTail
  }

  /**
   * The message states the wait: between its fixed lead and its fixed tail
   * stand only decimal digits, and they read back as the minutes.
   */
  lemma RateLimitedErrorStatesWait(minutes: nat)
    ensures var e := RateLimitedError(minutes);
      var end := |e| - |RateLimitedTail|;
      && |RateLimitedLead| <= end
      && e[..|RateLimitedLead|] == RateLimitedLead
      && e[end..] == RateLimitedTail
      && AllDigits(e[|RateLimitedLead|..end])
      && DecimalValue(e[|RateLimitedLead|..end]) == minutes
  {
    var lead, digits, tail := RateLimitedLead, NatToString(minutes), RateLimitedTail;
    var e := lead + digits + tail;
    assert e[..|lead|] == lead;
    assert e[|e| - |tail|..] == tail;
    assert e[|lead|..|e| - |tail|] == digits;
    DecimalRoundTrip(minutes);
  }

  /** Two rate-limit messages are equal only when they announce the same wait. */
  lemma RateLimitedErrorDeterminesWait(m: nat, m': nat)
    requires RateLimitedError(m) == RateLimitedError(m')
    ensures m == m'
  {
    RateLimitedErrorStatesWait(m);
    RateLimitedErrorStatesWait(m');
  }

  /**
   * Whole minutes, rounded up, until an hour has passed since the last
   * accepted call, `elapsed` milliseconds ago.
   */
  function MinutesUntilReset(elapsed: int): (m: int)
    ensures (m - 1) * 60000 < WindowMs - elapsed <= m * 60000
    ensures elapsed <= WindowMs ==> m >= 0
    ensures 0 <= elapsed <= WindowMs ==> m <= 60
  {
    -((elapsed - WindowMs) / 60000)
  }

  /** The key has an expiry and now lies strictly after it. */
  predicate Expired(row: UserSettings, now: int) {
    row.apiKeyExpiresAt.Some? && now > row.apiKeyExpiresAt.value
  }

  /** No accepted call yet, or the last one lies strictly more than an hour ago. */
  predicate WindowOver(row: UserSettings, now: int) {
    row.apiLastRequest.None? || now - row.apiLastRequest.value > WindowMs
  }

  /**
   * The gatekeeper's decision and the settings table after it. Only the two
   * counter columns of the key owner's row may change, a rejection writes
   * nothing, an accepted call moves the anchor to now, and no accepted call
   * leaves the count above the cap.
   */
  ghost function Check(rows: map<UserId, UserSettings>, token: string, now: int): (c: Checked)
    requires SettingsValid(rows)
    ensures SettingsValid(c.rows)
    ensures c.rows.Keys == rows.Keys
    ensures forall u :: u in rows ==>
      c.rows[u] == rows[u].(apiRequestCount := c.rows[u].apiRequestCount,
                            apiLastRequest := c.rows[u].apiLastRequest)
    ensures forall u :: u in rows && rows[u].apiKey != Some(token) ==> c.rows[u] == rows[u]
    ensures c.result.Rejected? ==> c.rows == rows
    ensures c.result.Accepted? ==>
      var u := c.result.userId;
      && u in rows && rows[u].apiKey == Some(token) && !Expired(rows[u], now)
      && c.rows[u].apiLastRequest == Some(now)
      && c.rows[u].apiRequestCount <= MaxRequestsPerHour
    ensures forall u :: u in rows && rows[u].apiRequestCount <= MaxRequestsPerHour ==>
      c.rows[u].apiRequestCount <= MaxRequestsPerHour
  {
    match KeyOwner(rows, token)
    case None => Checked(Rejected(InvalidKeyError), rows)
    case Some(u) =>
      var row := rows[u];
      if Expired(row, now) then
        Checked(Rejected(ExpiredKeyError), rows)
      else if WindowOver(row, now) then
        Checked(Accepted(row.userId), rows[u := row.(apiRequestCount := 1, apiLastRequest := Some(now))])
      else if row.apiRequestCount >= MaxRequestsPerHour then
        Checked(Rejected(RateLimitedError(MinutesUntilReset(now - row.apiLastRequest.value))), rows)
      else
        Checked(Accepted(row.userId),
                rows[u := row.(apiRequestCount := row.apiRequestCount + 1, apiLastRequest := Some(now))])
  }

  /** An unknown token is rejected as invalid and nothing is written, whatever the table holds. */
  lemma UnknownKeyRejected(rows: map<UserId, UserSettings>, token: string, now: int)
    requires SettingsValid(rows)
    requires forall u :: u in rows ==> rows[u].apiKey != Some(token)
    ensures Check(rows, token, now) == Checked(Rejected(InvalidKeyError), rows)
  {
  }

  /**
   * A known key is rejected as expired exactly when it has an expiry and now
   * lies strictly after it (now equal to the expiry is still valid); the
   * count does not matter, and nothing is written.
   */
  lemma ExpiredKeyRejected(rows: map<UserId, UserSettings>, token: string, now: int, u: UserId)
    requires SettingsValid(rows)
    requires u in rows && rows[u].apiKey == Some(token)
    ensures Check(rows, token, now).result == Rejected(ExpiredKeyError) <==>
      rows[u].apiKeyExpiresAt.Some? && now > rows[u].apiKeyExpiresAt.value
    ensures Expired(rows[u], now) ==> Check(rows, token, now).rows == rows
  {
    KeyOwnerUnique(rows, token, u);
    if !Expired(rows[u], now) {
      var r := Check(rows, token, now).result;
      assert r.Accepted? || r.error == RateLimitedError(MinutesUntilReset(now - rows[u].apiLastRequest.value));
      if r.Rejected? {
        assert StartsWith(r.error, "Rate limit exceeded");
        assert r.error[0] == 'R';
      }
    }
  }

  /**
   * With no earlier call, or more than an hour after the last one, a valid
   * key is accepted whatever the count was, the count restarts at 1 and the
   * anchor moves to now.
   */
  lemma FreshWindowResets(rows: map<UserId, UserSettings>, token: string, now: int, u: UserId)
    requires SettingsValid(rows)
    requires u in rows && rows[u].apiKey == Some(token) && !Expired(rows[u], now)
    requires rows[u].apiLastRequest.None? || now - rows[u].apiLastRequest.value > WindowMs
    ensures Check(rows, token, now) ==
      Checked(Accepted(u), rows[u := rows[u].(apiRequestCount := 1, apiLastRequest := Some(now))])
  {
    KeyOwnerUnique(rows, token, u);
  }

  /**
   * Within the hour (an elapsed time of exactly one hour included) and with
   * the count at the cap or above, the call is rejected as rate-limited,
   * with the minutes until reset, and nothing is written.
   */
  lemma OverCapRejected(rows: map<UserId, UserSettings>, token: string, now: int, u: UserId)
    requires SettingsValid(rows)
    requires u in rows && rows[u].apiKey == Some(token) && !Expired(rows[u], now)
    requires rows[u].apiLastRequest.Some? && now - rows[u].apiLastRequest.value <= WindowMs
    requires rows[u].apiRequestCount >= MaxRequestsPerHour
    ensures Check(rows, token, now) ==
      Checked(Rejected(RateLimitedError(MinutesUntilReset(now - rows[u].apiLastRequest.value))), rows)
  {
    KeyOwnerUnique(rows, token, u);
  }

  /**
   * Within the hour and under the cap, the call is accepted, the count goes
   * up by exactly one and the anchor moves to now.
   */
  lemma UnderCapCounted(rows: map<UserId, UserSettings>, token: string, now: int, u: UserId)
    requires SettingsValid(rows)
    requires u in rows && rows[u].apiKey == Some(token) && !Expired(rows[u], now)
    requires rows[u].apiLastRequest.Some? && now - rows[u].apiLastRequest.value <= WindowMs
    requires rows[u].apiRequestCount < MaxRequestsPerHour
    ensures Check(rows, token, now) ==
      Checked(Accepted(u), rows[u := rows[u].(apiRequestCount := rows[u].apiRequestCount + 1,
                                              apiLastRequest := Some(now))])
  {
    KeyOwnerUnique(rows, token, u);
  }

  /**
   * The decision depends on the key's owner only through its expiry and its
   * two counter columns: two tables in which u holds an unexpired key and the
   * same counters give the same answer and the same new counters.
   */
  lemma SameCountersSameDecision(rows: map<UserId, UserSettings>, token: string,
                                 rows': map<UserId, UserSettings>, token': string, now: int, u: UserId)
    requires SettingsValid(rows) && SettingsValid(rows')
    requires u in rows && rows[u].apiKey == Some(token) && !Expired(rows[u], now)
    requires u in rows' && rows'[u].apiKey == Some(token') && !Expired(rows'[u], now)
    requires rows'[u].apiRequestCount == rows[u].apiRequestCount
    requires rows'[u].apiLastRequest == rows[u].apiLastRequest
    ensures Check(rows', token', now).result == Check(rows, token, now).result
    ensures Check(rows', token', now).rows[u].apiRequestCount == Check(rows, token, now).rows[u].apiRequestCount
    ensures Check(rows', token', now).rows[u].apiLastRequest == Check(rows, token, now).rows[u].apiLastRequest
  {
    var row, row' := rows[u], rows'[u];
    var after := Check(rows', token', now);
    var before := Check(rows, token, now);
    if WindowOver(row, now) {
      FreshWindowResets(rows, token, now, u);
      FreshWindowResets(rows', token', now, u);
      assert after.rows[u].apiRequestCount == 1 == before.rows[u].apiRequestCount;
    } else if row.apiRequestCount >= MaxRequestsPerHour {
      OverCapRejected(rows, token, now, u);
      OverCapRejected(rows', token', now, u);
      assert after.rows[u] == row' && before.rows[u] == row;
    } else {
      UnderCapCounted(rows, token, now, u);
      UnderCapCounted(rows', token', now, u);
      assert after.rows[u].apiRequestCount == row.apiRequestCount + 1 == before.rows[u].apiRequestCount;
    }
  }

  /** A user at the cap whose last call was ten minutes ago waits 50 more minutes. */
  lemma CappedTenMinutesAgo(rows: map<UserId, UserSettings>, token: string, now: int, u: UserId)
    requires SettingsValid(rows)
    requires u in rows && rows[u].apiKey == Some(token) && !Expired(rows[u], now)
    requires rows[u].apiRequestCount == 15 && rows[u].apiLastRequest == Some(now - 10 * 60000)
    ensures Check(rows, token, now) == Checked(Rejected(RateLimitedError(50)), rows)
  {
    OverCapRejected(rows, token, now, u);
  }

  /** A user with three calls, the last one 61 minutes ago, starts a new window. */
  lemma ResetAfterSixtyOneMinutes(rows: map<UserId, UserSettings>, token: string, now: int, u: UserId)
    requires SettingsValid(rows)
    requires u in rows && rows[u].apiKey == Some(token) && !Expired(rows[u], now)
    requires rows[u].apiRequestCount == 3 && rows[u].apiLastRequest == Some(now - 61 * 60000)
    ensures Check(rows, token, now).result == Accepted(u)
    ensures Check(rows, token, now).rows[u].apiRequestCount == 1
  {
    FreshWindowResets(rows, token, now, u);
  }

  /** Once the key's owner u is known, the decision depends on u's row alone. */
  lemma CheckOfOwner(rows: map<UserId, UserSettings>, token: string, now: int, u: UserId)
    requires SettingsValid(rows)
    requires u in rows && rows[u].apiKey == Some(token)
    ensures var row := rows[u];
      Check(rows, token, now) ==
        if Expired(row, now) then Checked(Rejected(ExpiredKeyError), rows)
        else if WindowOver(row, now) then
          Checked(Accepted(u), rows[u := row.(apiRequestCount := 1, apiLastRequest := Some(now))])
        else if row.apiRequestCount >= MaxRequestsPerHour then
          Checked(Rejected(RateLimitedError(MinutesUntilReset(now - row.apiLastRequest.value))), rows)
        else
          Checked(Accepted(u), rows[u := row.(apiRequestCount := row.apiRequestCount + 1,
                                              apiLastRequest := Some(now))])
  {
    KeyOwnerUnique(rows, token, u);
  }

  /**
   * `checkRateLimit`: look the token up, then reject, or write the two
   * counter columns of the owner's row and accept.
   */
  method CheckRateLimit(db: Db, token: string, now: int) returns (result: CheckResult)
    requires db.Valid()
    modifies db
    ensures db.Valid()
    ensures Checked(result, db.settings) == Check(old(db.settings), token, now)
    ensures db.users == old(db.users) && db.faqSets == old(db.faqSets)
  {
    if !exists u :: u in db.settings && db.settings[u].apiKey == Some(token) {
      UnknownKeyRejected(db.settings, token, now);
      return Rejected(InvalidKeyError);
    }
    var u :| u in db.settings && db.settings[u].apiKey == Some(token);
    CheckOfOwner(db.settings, token, now, u);
    var row := db.settings[u];
    if row.apiKeyExpiresAt.Some? && now > row.apiKeyExpiresAt.value {
      return Rejected(ExpiredKeyError);
    }
    var lastRequest := row.apiLastRequest;
    if lastRequest.None? || now - lastRequest.value > WindowMs {
      db.settings := db.settings[row.userId := row.(apiRequestCount := 1, apiLastRequest := Some(now))];
      return Accepted(row.userId);
    }
    if row.apiRequestCount >= MaxRequestsPerHour {
      var timeUntilReset := MinutesUntilReset(now - lastRequest.value);
      return Rejected(RateLimitedError(timeUntilReset));
    }
    db.settings := db.settings[row.userId := row.(apiRequestCount := row.apiRequestCount + 1,
                                                  apiLastRequest := Some(now))];
    result := Accepted(row.userId);
  }
}

=== FILE: seo_score.dfy ===
/**
 * The SEO-score endpoint (app/api/seo-score/route.ts): refuse a request
 * without FAQ entries, render the entries as numbered German question and
 * answer lines, and pass that text to the language model, whose analysis is
 * the answer. The model call is a parameter.
 */
module SeoScore {
  import opened Common
  import opened Text

  const NoFaqDataError: string := "Keine FAQ-Daten übergeben."
  const AnalysisFailedError: string := "Fehler bei der SEO-Analyse."

  /** Entry i (from 0) as "Frage {i+1}: question\nAntwort {i+1}: answer". */
  function SeoEntry(i: nat, f: Qa): string {
    "Frage " + NatToString(i + 1) + ": " + f.question + "\nAntwort " + NatToString(i + 1) + ": " + f.answer
  }

  /** `faq.map(SeoEntry).join("\n\n")`. */
  function FaqText(faq: seq<Qa>): (text: string)
    ensures text == "" <==> |faq| == 0
  {
    var entries := MapIndexed(faq, SeoEntry);
    if |entries| == 0 then Join(entries, "\n\n")
    else
      JoinEndsWithLast(entries, "\n\n");
      Join(entries, "\n\n")
  }

  /** A single entry is numbered 1 and stands alone. */
  lemma FaqTextOne(f: Qa)
    ensures FaqText([f]) == "Frage 1: " + f.question + "\nAntwort 1: " + f.answer
  {
    assert MapIndexed([f], SeoEntry) == [SeoEntry(0, f)];
  }

  /**
   * Numbering is consecutive in input order: one more entry adds one blank
   * line and that entry, numbered one past the previous count.
   */
  lemma FaqTextSnoc(faq: seq<Qa>, f: Qa)
    requires |faq| >= 1
    ensures FaqText(faq + [f]) == FaqText(faq) + "\n\n" + SeoEntry(|faq|, f)
  {
    JoinMappedSnoc(faq, f, SeoEntry, "\n\n");
  }

  /** n entries are separated by exactly n - 1 blank lines and nothing else is added. */
  lemma FaqTextLength(faq: seq<Qa>)
    requires |faq| >= 1
    ensures |FaqText(faq)| + 2 == SumLengths(MapIndexed(faq, SeoEntry)) + 2 * |faq|
  {
    JoinLength(MapIndexed(faq, SeoEntry), "\n\n");
  }

  /**
   * `POST /api/seo-score`: 400 for a missing or empty list; otherwise the
   * model's analysis of the rendered text (`analyse`, None when the call or
   * its parsing fails), or 500.
   */
  function ScoreSeo(faq: Option<seq<Qa>>, analyse: string -> Option<string>): (r: Reply<string>)
    ensures r == Error(400, NoFaqDataError) <==> faq.None? || |faq.value| == 0
    ensures faq.Some? && |faq.value| > 0 ==>
      match analyse(FaqText(faq.value))
      case None => r == Error(500, AnalysisFailedError)
      case Some(analysis) => r == Ok(analysis)
  {
    if faq.None? || |faq.value| == 0 then Error(400, NoFaqDataError)
    else
      match analyse(FaqText(faq.value))
      case None => Error(500, AnalysisFailedError)
      case Some(analysis) => Ok(analysis)
  }
}

=== FILE: settings_route.dfy ===
/**
 * The settings endpoint (app/api/settings/route.ts). GET shows the signed-in
 * user's row, or the server defaults when there is none, without creating
 * one; POST upserts the five preference columns and leaves the key and
 * counter columns alone.
 */
module SettingsRoute {
  import opened Common
  import opened Database

  /** The preference fields of a POST body; None is a field the body leaves out. */
  datatype PreferencesBody = PreferencesBody(
    language: Option<string>,
    faqCount: Option<int>,
    tone: Option<string>,
    model: Option<string>,
    exportFormat: Option<string>)

  /**
   * GET's JSON body: the preferences, the key and its expiry, `apiCount`,
   * and (when a row exists) the rest of the row that the source spreads in.
   */
  datatype SettingsJson = SettingsJson(
    language: string,
    faqCount: int,
    tone: string,
    model: string,
    exportFormat: string,
    apiKey: Option<string>,
    apiKeyExpiresAt: Option<int>,
    apiCount: int,
    stored: Option<UserSettings>)

  /** What GET answers when the user has no row. */
  const DefaultJson: SettingsJson :=
    SettingsJson(DefaultLanguage, DefaultFaqCount, DefaultTone, DefaultModel, DefaultExportFormat,
                 None, None, 0, None)

  /**
   * `GET /api/settings`. A pure read: the table is a parameter and is not
   * returned, so no row is created. `apiCount` is the stored request count.
   */
  function GetSettings(rows: map<UserId, UserSettings>, user: Option<UserId>): (r: Reply<SettingsJson>)
    ensures user.None? <==> r == Error(401, "Unauthorized")
    ensures user.Some? && user.value !in rows ==> r == Ok(DefaultJson)
    ensures user.Some? && user.value in rows ==>
      var row := rows[user.value];
      && r.Ok? && r.body.stored == Some(row)
      && r.body.apiCount == row.apiRequestCount
      && r.body.apiKey == row.apiKey && r.body.apiKeyExpiresAt == row.apiKeyExpiresAt
      && r.body.language == row.language && r.body.faqCount == row.faqCount
      && r.body.tone == row.tone && r.body.model == row.model
      && r.body.exportFormat == row.exportFormat
  {
    match user
    case None => Error(401, "Unauthorized")
    case Some(u) =>
      if u !in rows then Ok(DefaultJson)
      else
        var row := rows[u];
        Ok(SettingsJson(row.language, row.faqCount, row.tone, row.model, row.exportFormat,
                        row.apiKey, row.apiKeyExpiresAt, row.apiRequestCount, Some(row)))
  }

  /**
   * The upsert of POST: update the given preference columns of the user's
   * row, or create the row with them (column defaults for the rest). Other
   * users' rows, and the key and counter columns of this one, are untouched.
   */
  function SavePreferences(rows: map<UserId, UserSettings>, d: ColumnDefaults, userId: UserId,
                           body: PreferencesBody): (rows': map<UserId, UserSettings>)
    requires SettingsValid(rows)
    ensures SettingsValid(rows')
    ensures rows'.Keys == rows.Keys + {userId}
    ensures forall v :: v in rows && v != userId ==> rows'[v] == rows[v]
    ensures var base := if userId in rows then rows[userId] else BlankRow(d, userId);
      && rows'[userId].(language := base.language, faqCount := base.faqCount, tone := base.tone,
                        model := base.model, exportFormat := base.exportFormat) == base
      && (body.language.Some? ==> rows'[userId].language == body.language.value)
      && (body.faqCount.Some? ==> rows'[userId].faqCount == body.faqCount.value)
      && (body.tone.Some? ==> rows'[userId].tone == body.tone.value)
      && (body.model.Some? ==> rows'[userId].model == body.model.value)
      && (body.exportFormat.Some? ==> rows'[userId].exportFormat == body.exportFormat.value)
      && (body.language.None? ==> rows'[userId].language == base.language)
      && (body.faqCount.None? ==> rows'[userId].faqCount == base.faqCount)
      && (body.tone.None? ==> rows'[userId].tone == base.tone)
      && (body.model.None? ==> rows'[userId].model == base.model)
      && (body.exportFormat.None? ==> rows'[userId].exportFormat == base.exportFormat)
  {
    var base := if userId in rows then rows[userId] else BlankRow(d, userId);
    rows[userId := base.(language := Given(body.language, base.language),
                         faqCount := Given(body.faqCount, base.faqCount),
                         tone := Given(body.tone, base.tone),
                         model := Given(body.model, base.model),
                         exportFormat := Given(body.exportFormat, base.exportFormat))]
  }

  /** Saving the same preferences twice leaves the same table as saving them once. */
  lemma SavePreferencesIdempotent(rows: map<UserId, UserSettings>, d: ColumnDefaults, userId: UserId,
                                  body: PreferencesBody)
    requires SettingsValid(rows)
    ensures var once := SavePreferences(rows, d, userId, body);
      SavePreferences(once, d, userId, body) == once
  {
    var once := SavePreferences(rows, d, userId, body);
    var twice := SavePreferences(once, d, userId, body);
    assert twice[userId] == once[userId];
    assert twice.Keys == once.Keys;
  }

  /** `POST /api/settings`: save the preferences of the signed-in user and answer with the row. */
  method PostSettings(db: Db, user: Option<UserId>, body: PreferencesBody) returns (reply: Reply<UserSettings>)
    requires db.Valid()
    modifies db
    ensures db.Valid()
    ensures db.users == old(db.users) && db.faqSets == old(db.faqSets)
    ensures user.None? ==> reply == Error(401, "Unauthorized") && db.settings == old(db.settings)
    ensures user.Some? ==>
      && db.settings == SavePreferences(old(db.settings), db.defaults, user.value, body)
      && reply == Ok(db.settings[user.value])
  {
    if user.None? {
      return Error(401, "Unauthorized");
    }
    var userId := user.value;
    db.settings := SavePreferences(db.settings, db.defaults, userId, body);
    reply := Ok(db.settings[userId]);
  }
}

=== FILE: settings_store.dfy ===
/**
 * The browser-side settings store (store/useSettingsStore.ts): one object
 * holding the account fields, the five generation preferences and the API
 * key, with setters, a reset to the preference defaults, and three actions
 * that talk to the server (load, save, new key). The server's responses are
 * parameters of those actions; `Failed` stands for a request or a JSON
 * parse that throws.
 */
module SettingsStore {
  import opened Common
  import opened Database
  import SettingsRoute
  import KeyRoute

  /** The store's data fields. */
  datatype StoreState = StoreState(
    email: string,
    name: string,
    language: string,
    faqCount: int,
    tone: string,
    model: string,
    exportFormat: string,
    apiKey: Option<string>,
    apiKeyExpiresAt: Option<string>)

  /** The values reset and load fall back to. */
  const FallbackLanguage: string := "de"
  const FallbackFaqCount: int := 6
  const FallbackTone: string := "professional"
  const FallbackModel: string := "gpt-4o-mini"
  const FallbackExportFormat: string := "json"

  /** The model a fresh store starts with, which is not the one reset restores. */
  const InitialModel: string := "gpt-5-nano"

  const InitialState: StoreState :=
    StoreState("", "", FallbackLanguage, FallbackFaqCount, FallbackTone, InitialModel, FallbackExportFormat,
               None, None)

  /** What the server answered, or `Failed` when the request or its parsing threw. */
  datatype Fetched<T> = Failed | Answered(ok: bool, data: T)

  /** The fields of a `/api/settings` JSON body the store reads; None is a missing field. */
  datatype SettingsData = SettingsData(
    language: Option<string>,
    faqCount: Option<int>,
    tone: Option<string>,
    model: Option<string>,
    exportFormat: Option<string>,
    apiKey: Option<string>,
    apiKeyExpiresAt: Option<string>)

  /** The fields of a `/api/key/generate` JSON body the store reads. */
  datatype KeyData = KeyData(apiKey: Option<string>, expiresAt: Option<string>, error: Option<string>)

  /** `{ success, apiKey?, error? }`, what the key action answers its caller. */
  datatype KeyOutcome = KeyOutcome(success: bool, apiKey: Option<string>, error: Option<string>)

  const KeyFailedFallback: string := "Failed to generate API key"
  const NetworkError: string := "Network error"

  /** The five preferences of a state, as one value. */
  datatype Preferences = Preferences(language: string, faqCount: int, tone: string, model: string,
                                     exportFormat: string)

  function PreferencesOf(s: StoreState): Preferences {
    Preferences(s.language, s.faqCount, s.tone, s.model, s.exportFormat)
  }

  /** `resetSettings`: the five preferences go back to their fallbacks; nothing else changes. */
  function Reset(s: StoreState): (t: StoreState)
    ensures PreferencesOf(t) ==
      Preferences(FallbackLanguage, FallbackFaqCount, FallbackTone, FallbackModel, FallbackExportFormat)
    ensures t.email == s.email && t.name == s.name
    ensures t.apiKey == s.apiKey && t.apiKeyExpiresAt == s.apiKeyExpiresAt
  {
    s.(language := FallbackLanguage, faqCount := FallbackFaqCount, tone := FallbackTone,
       model := FallbackModel, exportFormat := FallbackExportFormat)
  }

  /** Resetting a fresh store does not give a fresh store back: the model differs. */
  lemma ResetIsNotInitial()
    ensures Reset(InitialState) != InitialState
    ensures Reset(InitialState) == InitialState.(model := FallbackModel)
  {
    assert Reset(InitialState).model != InitialState.model;
  }

  /**
   * The merge of `loadSettings`: each preference takes the server's value
   * unless it is falsy, in which case it takes its fallback; the key fields
   * take the server's value, a falsy one as null; email and name stay.
   */
  function Loaded(s: StoreState, data: SettingsData): (t: StoreState)
    ensures t.email == s.email && t.name == s.name
    ensures t.language != "" && t.faqCount != 0 && t.tone != "" && t.model != "" && t.exportFormat != ""
    ensures Truthy(data.language) ==> t.language == data.language.value
    ensures !Truthy(data.language) ==> t.language == FallbackLanguage
    ensures data.faqCount.Some? && data.faqCount.value != 0 ==> t.faqCount == data.faqCount.value
    ensures data.faqCount.None? || data.faqCount.value == 0 ==> t.faqCount == FallbackFaqCount
    ensures Truthy(data.tone) ==> t.tone == data.tone.value
    ensures !Truthy(data.tone) ==> t.tone == FallbackTone
    ensures Truthy(data.model) ==> t.model == data.model.value
    ensures !Truthy(data.model) ==> t.model == FallbackModel
    ensures Truthy(data.exportFormat) ==> t.exportFormat == data.exportFormat.value
    ensures !Truthy(data.exportFormat) ==> t.exportFormat == FallbackExportFormat
    ensures t.apiKey == OrNull(data.apiKey) && t.apiKeyExpiresAt == OrNull(data.apiKeyExpiresAt)
  {
    s.(language := OrElse(data.language, FallbackLanguage),
       faqCount := OrElseNumber(data.faqCount, FallbackFaqCount),
       tone := OrElse(data.tone, FallbackTone),
       model := OrElse(data.model, FallbackModel),
       exportFormat := OrElse(data.exportFormat, FallbackExportFormat),
       apiKey := OrNull(data.apiKey),
       apiKeyExpiresAt := OrNull(data.apiKeyExpiresAt))
  }

  /** Loading the same answer twice leaves the store as loading it once. */
  lemma LoadedIdempotent(s: StoreState, data: SettingsData)
    ensures Loaded(Loaded(s, data), data) == Loaded(s, data)
  {
  }

  /** The POST body of `saveSettings`: exactly the five preferences, each given. */
  function Payload(s: StoreState): (p: SettingsRoute.PreferencesBody)
    ensures p.language == Some(s.language) && p.faqCount == Some(s.faqCount) && p.tone == Some(s.tone)
    ensures p.model == Some(s.model) && p.exportFormat == Some(s.exportFormat)
  {
    SettingsRoute.PreferencesBody(Some(s.language), Some(s.faqCount), Some(s.tone), Some(s.model),
                                  Some(s.exportFormat))
  }

  /** The store after a key request, and what the request answers. */
  datatype KeyRequested = KeyRequested(state: StoreState, outcome: KeyOutcome)

  /**
   * `generateApiKey`: on success store the key and expiry the server sent;
   * otherwise leave the store alone and report the server's error, its
   * fallback, or a network error.
   */
  function RequestKey(s: StoreState, response: Fetched<KeyData>): (r: KeyRequested)
    ensures r.outcome.success <==> response.Answered? && response.ok
    ensures !r.outcome.success ==> r.state == s && r.outcome.apiKey.None? && r.outcome.error.Some?
    ensures r.outcome.success ==>
      && r.state == s.(apiKey := response.data.apiKey, apiKeyExpiresAt := response.data.expiresAt)
      && r.outcome.apiKey == response.data.apiKey && r.outcome.error.None?
    ensures response.Failed? ==> r.outcome.error == Some(NetworkError)
    ensures response.Answered? && !response.ok ==>
      r.outcome.error == Some(OrElse(response.data.error, KeyFailedFallback))
  {
    match response
    case Failed => KeyRequested(s, KeyOutcome(false, None, Some(NetworkError)))
    case Answered(ok, data) =>
      if ok then
        KeyRequested(s.(apiKey := data.apiKey, apiKeyExpiresAt := data.expiresAt),
                     KeyOutcome(true, data.apiKey, None))
      else
        KeyRequested(s, KeyOutcome(false, None, Some(OrElse(data.error, KeyFailedFallback))))
  }

  /** The store object. */
  class Store {
    var email: string
    var name: string
    var language: string
    var faqCount: int
    var tone: string
    var model: string
    var exportFormat: string
    var apiKey: Option<string>
    var apiKeyExpiresAt: Option<string>

    function State(): StoreState
      reads this
    {
      StoreState(email, name, language, faqCount, tone, model, exportFormat, apiKey, apiKeyExpiresAt)
    }

    /** The store with its initial values. */
    constructor ()
      ensures State() == InitialState
    {
      email, name := "", "";
      language, faqCount, tone := FallbackLanguage, FallbackFaqCount, FallbackTone;
      model, exportFormat := InitialModel, FallbackExportFormat;
      apiKey, apiKeyExpiresAt := None, None;
    }

    method SetEmail(v: string)
      modifies this
      ensures State() == old(State()).(email := v)
    {
      email := v;
    }

    method SetName(v: string)
      modifies this
      ensures State() == old(State()).(name := v)
    {
      name := v;
    }

    method SetLanguage(v: string)
      modifies this
      ensures State() == old(State()).(language := v)
    {
      language := v;
    }

    method SetFaqCount(v: int)
      modifies this
      ensures State() == old(State()).(faqCount := v)
    {
      faqCount := v;
    }

    method SetTone(v: string)
      modifies this
      ensures State() == old(State()).(tone := v)
    {
      tone := v;
    }

    method SetModel(v: string)
      modifies this
      ensures State() == old(State()).(model := v)
    {
      model := v;
    }

    method SetExportFormat(v: string)
      modifies this
      ensures State() == old(State()).(exportFormat := v)
    {
      exportFormat := v;
    }

    /** The key and its expiry always change together. */
    method SetApiKey(key: Option<string>, expiresAt: Option<string>)
      modifies this
      ensures State() == old(State()).(apiKey := key, apiKeyExpiresAt := expiresAt)
    {
      apiKey, apiKeyExpiresAt := key, expiresAt;
    }

    /** `loadSettings`: merge an ok answer; a refused or failed request changes nothing. */
    method LoadSettings(response: Fetched<SettingsData>)
      modifies this
      ensures response.Answered? && response.ok ==> State() == Loaded(old(State()), response.data)
      ensures !(response.Answered? && response.ok) ==> State() == old(State())
    {
      if response.Answered? && response.ok {
        var data := response.data;
        language := OrElse(data.language, FallbackLanguage);
        faqCount := OrElseNumber(data.faqCount, FallbackFaqCount);
        tone := OrElse(data.tone, FallbackTone);
        model := OrElse(data.model, FallbackModel);
        exportFormat := OrElse(data.exportFormat, FallbackExportFormat);
        apiKey := OrNull(data.apiKey);
        apiKeyExpiresAt := OrNull(data.apiKeyExpiresAt);
      }
    }

    /**
     * `saveSettings`: send the five preferences; the result is whether the
     * server answered ok (`response` is None when the request threw). The
     * store itself does not change.
     */
    method SaveSettings(response: Option<bool>) returns (payload: SettingsRoute.PreferencesBody, saved: bool)
      ensures payload == Payload(State())
      ensures saved <==> response == Some(true)
    {
      payload := SettingsRoute.PreferencesBody(Some(language), Some(faqCount), Some(tone), Some(model),
                                               Some(exportFormat));
      saved := response.Some? && response.value;
    }

    /** `generateApiKey`. */
    method GenerateApiKey(response: Fetched<KeyData>) returns (outcome: KeyOutcome)
      modifies this
      ensures KeyRequested(State(), outcome) == RequestKey(old(State()), response)
    {
      if response.Failed? {
        return KeyOutcome(false, None, Some(NetworkError));
      }
      var data := response.data;
      if response.ok {
        apiKey, apiKeyExpiresAt := data.apiKey, data.expiresAt;
        return KeyOutcome(true, data.apiKey, None);
      }
      outcome := KeyOutcome(false, None, Some(OrElse(data.error, KeyFailedFallback)));
    }

    /** `resetSettings`. */
    method ResetSettings()
      modifies this
      ensures State() == Reset(old(State()))
    {
      language, faqCount, tone := FallbackLanguage, FallbackFaqCount, FallbackTone;
      model, exportFormat := FallbackModel, FallbackExportFormat;
    }
  }

  // ----- the store against the server routes -----

  /**
   * The settings GET body as the store reads it after JSON transport;
   * `iso` renders a time as the date string JSON carries.
   */
  function ClientSettings(j: SettingsRoute.SettingsJson, iso: int -> string): (data: SettingsData)
    ensures data.language == Some(j.language) && data.faqCount == Some(j.faqCount)
    ensures data.tone == Some(j.tone) && data.model == Some(j.model)
    ensures data.exportFormat == Some(j.exportFormat) && data.apiKey == j.apiKey
    ensures data.apiKeyExpiresAt.Some? <==> j.apiKeyExpiresAt.Some?
  {
    SettingsData(Some(j.language), Some(j.faqCount), Some(j.tone), Some(j.model), Some(j.exportFormat),
                 j.apiKey,
                 if j.apiKeyExpiresAt.Some? then Some(iso(j.apiKeyExpiresAt.value)) else None)
  }

  /**
   * A signed-in user without a settings row who loads the settings gets
   * exactly the preferences a reset gives, and no key.
   */
  lemma LoadWithoutRowIsReset(rows: map<UserId, UserSettings>, u: UserId, s: StoreState, iso: int -> string)
    requires u !in rows
    ensures var reply := SettingsRoute.GetSettings(rows, Some(u));
      && reply.Ok?
      && Loaded(s, ClientSettings(reply.body, iso)) == Reset(s).(apiKey := None, apiKeyExpiresAt := None)
  {
    var reply := SettingsRoute.GetSettings(rows, Some(u));
    assert reply == Ok(SettingsRoute.DefaultJson);
  }

  /**
   * Saving the store's preferences and loading them back gives each one
   * back, except that a falsy preference comes back as its fallback.
   */
  lemma SaveThenLoad(rows: map<UserId, UserSettings>, d: ColumnDefaults, u: UserId, s: StoreState,
                     iso: int -> string)
    requires SettingsValid(rows)
    ensures var rows' := SettingsRoute.SavePreferences(rows, d, u, Payload(s));
      var reply := SettingsRoute.GetSettings(rows', Some(u));
      && reply.Ok?
      && PreferencesOf(Loaded(s, ClientSettings(reply.body, iso))) ==
         Preferences(OrElse(Some(s.language), FallbackLanguage), OrElseNumber(Some(s.faqCount), FallbackFaqCount),
                     OrElse(Some(s.tone), FallbackTone), OrElse(Some(s.model), FallbackModel),
                     OrElse(Some(s.exportFormat), FallbackExportFormat))
  {
    var rows' := SettingsRoute.SavePreferences(rows, d, u, Payload(s));
    assert u in rows';
    var reply := SettingsRoute.GetSettings(rows', Some(u));
    var row := rows'[u];
    assert row.language == s.language && row.faqCount == s.faqCount && row.tone == s.tone;
    assert row.model == s.model && row.exportFormat == s.exportFormat;
  }

  /** With no falsy preference, saving and loading back is the identity on the preferences. */
  lemma SaveThenLoadRoundTrip(rows: map<UserId, UserSettings>, d: ColumnDefaults, u: UserId, s: StoreState,
                              iso: int -> string)
    requires SettingsValid(rows)
    requires s.language != "" && s.faqCount != 0 && s.tone != "" && s.model != "" && s.exportFormat != ""
    ensures var rows' := SettingsRoute.SavePreferences(rows, d, u, Payload(s));
      var reply := SettingsRoute.GetSettings(rows', Some(u));
      && reply.Ok?
      && PreferencesOf(Loaded(s, ClientSettings(reply.body, iso))) == PreferencesOf(s)
  {
    SaveThenLoad(rows, d, u, s, iso);
  }

  /** The key route's answer as the store reads it. */
  function ClientKeyReply(reply: Reply<KeyRoute.Issued>, iso: int -> string): (r: Fetched<KeyData>)
    ensures r.Answered? && (r.ok <==> reply.Ok?)
    ensures reply.Ok? ==> r.data.apiKey == Some(reply.body.apiKey)
    ensures reply.Error? ==> r.data.error == Some(reply.message)
  {
    match reply
    case Ok(issued) => Answered(true, KeyData(Some(issued.apiKey), Some(iso(issued.expiresAt)), None))
    case Error(_, message) => Answered(false, KeyData(None, None, Some(message)))
  }

  /**
   * A key the route issues ends up in the store, 40 characters long; a
   * refusal leaves the store alone and shows the route's own message.
   */
  lemma IssuedKeyReachesStore(s: StoreState, reply: Reply<KeyRoute.Issued>, iso: int -> string)
    requires reply.Ok? ==> |reply.body.apiKey| == KeyRoute.KeyLength
    ensures var r := RequestKey(s, ClientKeyReply(reply, iso));
      && (reply.Ok? ==> r.outcome.success && r.state.apiKey == Some(reply.body.apiKey)
                        && |r.state.apiKey.value| == 40
                        && r.state.(apiKey := s.apiKey, apiKeyExpiresAt := s.apiKeyExpiresAt) == s)
      && (reply == Error(500, KeyRoute.FailedError) ==>
            r.state == s && r.outcome.error == Some(KeyFailedFallback))
      && (reply == Error(401, "Unauthorized") ==> r.state == s && r.outcome.error == Some("Unauthorized"))
  {
  }
}

=== FILE: sync_user.dfy ===
/**
 * User synchronisation helpers (lib/sync-user.ts): upsert the signed-in
 * user's row, and find-or-create the user's settings row with the server's
 * default preferences. The same two table operations back the sync
 * endpoint (app/api/user/sync/route.ts).
 */
module SyncUser {
  import opened Common
  import opened Database

  /** The signed-in user as the auth provider describes it; its email is always present. */
  datatype AuthUser = AuthUser(id: UserId, email: string, name: Option<string>, avatarUrl: Option<string>)

  /**
   * Upsert of a `user` row by id: the row afterwards holds the given email,
   * and a falsy name or avatar URL is stored as null. Other rows are untouched.
   */
  function UpsertUser(users: map<UserId, User>, id: UserId, email: string,
                      name: Option<string>, avatarUrl: Option<string>): (users': map<UserId, User>)
    requires UsersValid(users)
    ensures UsersValid(users')
    ensures users'.Keys == users.Keys + {id}
    ensures forall v :: v in users && v != id ==> users'[v] == users[v]
    ensures users'[id].email == email
    ensures Truthy(name) ==> users'[id].name == name
    ensures Truthy(avatarUrl) ==> users'[id].avatarUrl == avatarUrl
    ensures !Truthy(name) ==> users'[id].name.None?
    ensures !Truthy(avatarUrl) ==> users'[id].avatarUrl.None?
  {
    users[id := User(id, email, OrNull(name), OrNull(avatarUrl))]
  }

  /** Upserting the same user twice gives the same table as once. */
  lemma UpsertUserIdempotent(users: map<UserId, User>, id: UserId, email: string,
                             name: Option<string>, avatarUrl: Option<string>)
    requires UsersValid(users)
    ensures var once := UpsertUser(users, id, email, name, avatarUrl);
      UpsertUser(once, id, email, name, avatarUrl) == once
  {
  }

  /** The settings row created for a user who has none: the server's default preferences. */
  function DefaultSettingsRow(d: ColumnDefaults, userId: UserId): (row: UserSettings)
    ensures row.userId == userId && row.apiKey.None? && row.apiLastRequest.None?
    ensures row.language == DefaultLanguage && row.faqCount == DefaultFaqCount
    ensures row.tone == DefaultTone && row.model == DefaultModel
    ensures row.exportFormat == DefaultExportFormat
  {
    BlankRow(d, userId).(language := DefaultLanguage, faqCount := DefaultFaqCount, tone := DefaultTone,
                         model := DefaultModel, exportFormat := DefaultExportFormat)
  }

  /**
   * Make sure the user has a settings row: an existing row is left exactly
   * as it is, a missing one is created with the default preferences.
   */
  function EnsureSettings(rows: map<UserId, UserSettings>, d: ColumnDefaults, userId: UserId)
    : (rows': map<UserId, UserSettings>)
    requires SettingsValid(rows)
    ensures SettingsValid(rows')
    ensures rows'.Keys == rows.Keys + {userId}
    ensures forall v :: v in rows ==> rows'[v] == rows[v]
    ensures userId !in rows ==> rows'[userId] == DefaultSettingsRow(d, userId)
  {
    if userId in rows then rows else rows[userId := DefaultSettingsRow(d, userId)]
  }

  /** A second call finds the row the first one made and creates nothing further. */
  lemma EnsureSettingsIdempotent(rows: map<UserId, UserSettings>, d: ColumnDefaults, userId: UserId)
    requires SettingsValid(rows)
    ensures var once := EnsureSettings(rows, d, userId);
      EnsureSettings(once, d, userId) == once && userId in once
  {
  }

  /** `syncUser`: upsert the user's row and return it. */
  method SyncUser(db: Db, supabaseUser: AuthUser) returns (user: User)
    requires db.Valid()
    modifies db
    ensures db.Valid()
    ensures db.settings == old(db.settings) && db.faqSets == old(db.faqSets)
    ensures db.users == UpsertUser(old(db.users), supabaseUser.id, supabaseUser.email,
                                   supabaseUser.name, supabaseUser.avatarUrl)
    ensures user == db.users[supabaseUser.id]
  {
    db.users := UpsertUser(db.users, supabaseUser.id, supabaseUser.email,
                           supabaseUser.name, supabaseUser.avatarUrl);
    user := db.users[supabaseUser.id];
  }

  /** `getOrCreateUserSettings`: the user's row, created with the defaults if missing. */
  method GetOrCreateUserSettings(db: Db, userId: UserId) returns (settings: UserSettings)
    requires db.Valid()
    modifies db
    ensures db.Valid()
    ensures db.users == old(db.users) && db.faqSets == old(db.faqSets)
    ensures db.settings == EnsureSettings(old(db.settings), db.defaults, userId)
    ensures userId in old(db.settings) ==> settings == old(db.settings)[userId]
    ensures userId !in old(db.settings) ==> settings == DefaultSettingsRow(db.defaults, userId)
  {
    if userId in db.settings {
      return db.settings[userId];
    }
    settings := DefaultSettingsRow(db.defaults, userId);
    db.settings := db.settings[userId := settings];
  }
}

=== FILE: text.dfy ===
/**
 * The few JavaScript string operations the routes rely on, defined on
 * `seq<char>`: decimal rendering of numbers in template literals,
 * `Array.prototype.join`, `startsWith`, `includes` and `slice(0, n)`.
 */
module Text {

  predicate IsDigit(c: char) {
    '0' <= c <= '9'
  }

  predicate AllDigits(s: string) {
    forall i :: 0 <= i < |s| ==> IsDigit(s[i])
  }

  function DigitChar(d: nat): (c: char)
    requires d < 10
    ensures IsDigit(c)
    ensures c as int - '0' as int == d
  {
    (d + '0' as int) as char
  }

  /** Decimal rendering of a natural number, as `${n}` does in a template literal. */
  function NatToString(n: nat): (s: string)
    ensures |s| >= 1 && AllDigits(s)
    ensures |s| > 1 ==> s[0] != '0'
    decreases n
  {
    if n < 10 then [DigitChar(n)] else NatToString(n / 10) + [DigitChar(n % 10)]
  }

  /** The value of a string of decimal digits (reference reading of NatToString). */
  function DecimalValue(s: string): nat
    requires AllDigits(s)
    decreases |s|
  {
    if s == [] then 0
    else DecimalValue(s[..|s| - 1]) * 10 + (s[|s| - 1] as int - '0' as int)
  }

  /** Rendering a number and reading it back gives the number. */
  lemma {:induction false} DecimalRoundTrip(n: nat)
    ensures DecimalValue(NatToString(n)) == n
    decreases n
  {
    var s := NatToString(n);
    if n >= 10 {
      DecimalRoundTrip(n / 10);
      assert s[..|s| - 1] == NatToString(n / 10);
    }
  }

  /** `s.startsWith(prefix)`. */
  predicate StartsWith(s: string, prefix: string)
    ensures StartsWith(s, prefix) <==> |prefix| <= |s| && s == prefix + s[|prefix|..]
  {
    |prefix| <= |s| && s[..|prefix|] == prefix
  }

  /** `s.includes(t)`: t occurs at some position of s. */
  predicate Contains(s: string, t: string)
    ensures StartsWith(s, t) ==> Contains(s, t)
    ensures Contains(s, t) ==> |t| <= |s|
    decreases |s|
  {
    StartsWith(s, t) || (|s| > 0 && Contains(s[1..], t))
  }

  /** t stands in s at position i. */
  predicate OccursAt(s: string, t: string, i: int) {
    0 <= i <= |s| - |t| && s[i..i + |t|] == t
  }

  /** `includes` finds t exactly when t stands in s at some position. */
  lemma {:induction false} ContainsIffOccurs(s: string, t: string)
    ensures Contains(s, t) <==> exists i :: OccursAt(s, t, i)
    decreases |s|
  {
    if StartsWith(s, t) {
      assert OccursAt(s, t, 0);
    } else if |s| == 0 {
      assert forall i :: !OccursAt(s, t, i);
    } else {
      ContainsIffOccurs(s[1..], t);
      if Contains(s[1..], t) {
        var j :| OccursAt(s[1..], t, j);
        assert s[1..][j..j + |t|] == s[j + 1..j + 1 + |t|];
        assert OccursAt(s, t, j + 1);
      } else {
        forall i | OccursAt(s, t, i) ensures false {
          if i > 0 {
            assert s[1..][i - 1..i - 1 + |t|] == s[i..i + |t|];
            assert OccursAt(s[1..], t, i - 1);
          }
        }
      }
    }
  }

  /** A string that lacks the first character of t cannot contain t. */
  lemma {:induction false} NotContainsWithoutFirstChar(s: string, t: string)
    requires |t| > 0 && t[0] !in s
    ensures !Contains(s, t)
    decreases |s|
  {
    if |s| > 0 {
      assert forall i :: 0 <= i < |s| - 1 ==> s[1..][i] == s[i + 1];
      NotContainsWithoutFirstChar(s[1..], t);
    }
  }

  /** `s.slice(0, n)`: the first n characters, or all of s when it is shorter. */
  function Take(s: string, n: nat): (r: string)
    ensures |r| == if |s| < n then |s| else n
    ensures r <= s
  {
    if |s| <= n then s else s[..n]
  }

  /** `parts.join(sep)`: the parts in order with sep between neighbours. */
  function Join(parts: seq<string>, sep: string): (r: string)
    ensures |parts| == 0 ==> r == ""
    ensures |parts| == 1 ==> r == parts[0]
    decreases |parts|
  {
    if |parts| == 0 then ""
    else if |parts| == 1 then parts[0]
    else Join(parts[..|parts| - 1], sep) + sep + parts[|parts| - 1]
  }

  /** A join of n >= 1 parts ends with the last part. */
  lemma {:induction false} JoinEndsWithLast(parts: seq<string>, sep: string)
    requires |parts| >= 1
    ensures var r, last := Join(parts, sep), parts[|parts| - 1];
      |last| <= |r| && r[|r| - |last|..] == last
  {
    if |parts| > 1 {
      var init, last := Join(parts[..|parts| - 1], sep) + sep, parts[|parts| - 1];
      assert Join(parts, sep) == init + last;
      assert (init + last)[|init|..] == last;
    }
  }

  /** Total length of the parts. */
  function SumLengths(parts: seq<string>): nat
    decreases |parts|
  {
    if |parts| == 0 then 0 else SumLengths(parts[..|parts| - 1]) + |parts[|parts| - 1]|
  }

  /** Joining n >= 1 parts inserts exactly n - 1 separators and nothing else. */
  lemma {:induction false} JoinLength(parts: seq<string>, sep: string)
    requires |parts| >= 1
    ensures |Join(parts, sep)| + |sep| == SumLengths(parts) + |parts| * |sep|
    decreases |parts|
  {
    if |parts| > 1 {
      var init := parts[..|parts| - 1];
      JoinLength(init, sep);
      assert |parts| * |sep| == |init| * |sep| + |sep|;
    }
  }

  /** Prepending a part to a non-empty list puts it and one separator in front. */
  lemma {:induction false} JoinCons(a: string, parts: seq<string>, sep: string)
    requires |parts| >= 1
    ensures Join([a] + parts, sep) == a + sep + Join(parts, sep)
    decreases |parts|
  {
    var whole := [a] + parts;
    var last := parts[|parts| - 1];
    assert whole[|whole| - 1] == last;
    if |parts| == 1 {
      assert whole[..|whole| - 1] == [a];
    } else {
      var init := parts[..|parts| - 1];
      JoinCons(a, init, sep);
      assert whole[..|whole| - 1] == [a] + init;
      calc {
        Join(whole, sep);
        Join([a] + init, sep) + sep + last;
        a + sep + Join(init, sep) + sep + last;
        a + sep + Join(parts, sep);
      }
    }
  }

  /** Extending the first part on the left extends the joined string the same way. */
  lemma {:induction false} JoinExtendFirst(x: string, a: string, parts: seq<string>, sep: string)
    ensures Join([x + a] + parts, sep) == x + Join([a] + parts, sep)
    decreases |parts|
  {
    if |parts| > 0 {
      var init := parts[..|parts| - 1];
      var last := parts[|parts| - 1];
      var long, short := [x + a] + parts, [a] + parts;
      JoinExtendFirst(x, a, init, sep);
      assert long[..|parts|] == [x + a] + init && long[|parts|] == last;
      assert short[..|parts|] == [a] + init && short[|parts|] == last;
      calc {
        Join(long, sep);
        Join([x + a] + init, sep) + sep + last;
        x + Join([a] + init, sep) + sep + last;
        x + Join(short, sep);
      }
    }
  }

  /**
   * `s.split(c)` for a one-character separator: the runs of s between
   * occurrences of c, in order, empty runs included.
   */
  function Split(s: string, c: char): (parts: seq<string>)
    ensures |parts| >= 1
    ensures forall i :: 0 <= i < |parts| ==> c !in parts[i]
    ensures parts[0] <= s
    ensures |parts[0]| == |s| || s[|parts[0]|] == c
    decreases |s|
  {
    if s == [] then [""]
    else
      var rest := Split(s[1..], c);
      if s[0] == c then [""] + rest
      else [[s[0]] + rest[0]] + rest[1..]
  }

  /** Splitting and joining with the same separator gives the string back. */
  lemma {:induction false} SplitJoinRoundTrip(s: string, c: char)
    ensures Join(Split(s, c), [c]) == s
    decreases |s|
  {
    if s != [] {
      var rest := Split(s[1..], c);
      SplitJoinRoundTrip(s[1..], c);
      if s[0] == c {
        JoinCons("", rest, [c]);
      } else {
        assert rest == [rest[0]] + rest[1..];
        JoinExtendFirst([s[0]], rest[0], rest[1..], [c]);
      }
      assert s == [s[0]] + s[1..];
    }
  }

  /** A leading field free of c, then c, contributes exactly that field. */
  lemma {:induction false} SplitAfterField(field: string, c: char, t: string)
    requires c !in field
    ensures Split(field + [c] + t, c) == [field] + Split(t, c)
    decreases |field|
  {
    var s := field + [c] + t;
    if field != [] {
      assert field[0] in field;
      assert s[0] == field[0] != c;
      assert s[1..] == field[1..] + [c] + t;
      SplitAfterField(field[1..], c, t);
      var rest := Split(s[1..], c);
      assert rest == [field[1..]] + Split(t, c);
      assert Split(s, c) == [[field[0]] + rest[0]] + rest[1..];
      assert [field[0]] + field[1..] == field;
    } else {
      assert s[0] == c && s[1..] == t;
    }
  }

  /** `xs.map((x, i) => f(i, x))`. */
  function MapIndexed<T>(xs: seq<T>, f: (nat, T) -> string): seq<string> {
    seq(|xs|, i requires 0 <= i < |xs| => f(i, xs[i]))
  }

  /**
   * Appending one element to a mapped-and-joined list appends exactly one
   * separator and the element's rendering at index |xs|.
   */
  lemma JoinMappedSnoc<T>(xs: seq<T>, x: T, f: (nat, T) -> string, sep: string)
    requires |xs| >= 1
    ensures Join(MapIndexed(xs + [x], f), sep) == Join(MapIndexed(xs, f), sep) + sep + f(|xs|, x)
  {
    var whole := MapIndexed(xs + [x], f);
    assert whole[..|whole| - 1] == MapIndexed(xs, f);
  }
}

=== FILE: user_sync_route.dfy ===
/**
 * The sync endpoint (app/api/user/sync/route.ts): after sign-in the client
 * posts the user's identity; the route upserts the `user` row and makes
 * sure a settings row exists without ever changing an existing one.
 */
module UserSyncRoute {
  import opened Common
  import opened Database
  import opened SyncUser

  /** The JSON body; None is a field the body leaves out. */
  datatype SyncBody = SyncBody(id: Option<string>, email: Option<string>,
                               name: Option<string>, avatarUrl: Option<string>)

  /** The answer of the route together with both tables after it. */
  datatype Synced = Synced(reply: Reply<User>, users: map<UserId, User>, rows: map<UserId, UserSettings>)

  const MissingFieldsError: string := "User ID and email are required"

  /**
   * The whole effect of one sync call: a body without a truthy id or email
   * is refused with 400 and writes nothing; otherwise the user row is
   * upserted, the settings row is ensured, and the stored user is returned.
   */
  function Sync(users: map<UserId, User>, rows: map<UserId, UserSettings>, d: ColumnDefaults,
                body: SyncBody): (s: Synced)
    requires UsersValid(users) && SettingsValid(rows)
    ensures UsersValid(s.users) && SettingsValid(s.rows)
    ensures !(Truthy(body.id) && Truthy(body.email)) ==>
      s == Synced(Error(400, MissingFieldsError), users, rows)
    ensures Truthy(body.id) && Truthy(body.email) ==>
      && s.reply.Ok? && s.reply.body.id == body.id.value && s.reply.body.email == body.email.value
      && s.users == UpsertUser(users, body.id.value, body.email.value, body.name, body.avatarUrl)
      && s.rows == EnsureSettings(rows, d, body.id.value)
    ensures forall v :: v in rows ==> v in s.rows && s.rows[v] == rows[v]
  {
    if !Truthy(body.id) || !Truthy(body.email) then
      Synced(Error(400, MissingFieldsError), users, rows)
    else
      var id := body.id.value;
      var users' := UpsertUser(users, id, body.email.value, body.name, body.avatarUrl);
      Synced(Ok(users'[id]), users', EnsureSettings(rows, d, id))
  }

  /** Syncing twice with the same body leaves the same tables, and answers the same, as syncing once. */
  lemma SyncIdempotent(users: map<UserId, User>, rows: map<UserId, UserSettings>, d: ColumnDefaults,
                       body: SyncBody)
    requires UsersValid(users) && SettingsValid(rows)
    ensures var once := Sync(users, rows, d, body);
      Sync(once.users, once.rows, d, body) == once
  {
    if Truthy(body.id) && Truthy(body.email) {
      var id := body.id.value;
      UpsertUserIdempotent(users, id, body.email.value, body.name, body.avatarUrl);
      EnsureSettingsIdempotent(rows, d, id);
    }
  }

  /** `POST /api/user/sync`: the two upserts, in the source's order. */
  method PostSync(db: Db, body: SyncBody) returns (reply: Reply<User>)
    requires db.Valid()
    modifies db
    ensures db.Valid()
    ensures db.faqSets == old(db.faqSets)
    ensures Synced(reply, db.users, db.settings) == Sync(old(db.users), old(db.settings), db.defaults, body)
  {
    if !Truthy(body.id) || !Truthy(body.email) {
      return Error(400, MissingFieldsError);
    }
    var id := body.id.value;
    db.users := UpsertUser(db.users, id, body.email.value, body.name, body.avatarUrl);
    var user := db.users[id];
    db.settings := EnsureSettings(db.settings, db.defaults, id);
    reply := Ok(user);
  }
}
